=== FILE: README.md ===
# Corporate-website finder, modelled in Dafny

The system looks up a company's website. It asks one or more search engines for a quoted company name. It merges their result lists. It throws away candidates that are not worth downloading, such as images, social-network pages and, if asked, non-home pages. Each remaining page is downloaded and scored against the company's known data (name, city, country, phone, postcode, street) with a table of weighted validation rules. The link with the highest weight is returned if that weight reaches a threshold. A command-line driver runs this over the rows of a CSV file and fills in their `website` column.

This project models that core as pure functions over immutable data. Each step carries a contract, and lemmas relate the steps to independent reference definitions:

- the query-string filter, both engines' result-count clamps and the normalisation of Custom Search API items;
- the merge and deduplication of the engines' results;
- the home-page test, the exclusion pre-check, the scoring with its per-candidate content cache, and the arg-max selection of `UrlFinder.get`;
- the matching library the driver configures (`words_filter`, `words_find`, `words_find_all`, `sentence_find`, `str_filter`, `str_find_all`, `str_find`);
- the driver's rule table, its finder, the row-window predicate and the row loop.

Modules, one per file:

| file | module | contents |
|---|---|---|
| wrappers.dfy | Wrappers | `Option`, `Result` |
| errors.dfy | Errors | the Python exceptions that can escape |
| text.dfy | Text | `str.strip`, `str.split`, `str.replace`, ASCII lower-casing, sentence splitting, accent stripping |
| search.dfy | Search | `str.find`, case-insensitive search, whole-word (`\b…\b`) search |
| engines.dfy | Engines | query filter, engines, `_normalize`, merging of results |
| urls.dfy | Urls | `urlsplit` as far as the home test needs it, extension blocklist, social-domain pattern |
| matching.dfy | Matching | filters and matchers of crawler.py as closed datatypes |
| ranking.dfy | Ranking | `UrlFinder`: configuration, content cache, candidate weights, selection, `get` |
| crawler.dfy | Crawler | the rule table, `main`'s finder, the row predicate and loop |

These things are parameters:

- an engine's answer to a query, as `(Engine, string) -> EngineOutcome`;
- a page download, as `string -> FetchOutcome`: a page, a connection error, or another request error;
- the HTML content functions, as `extract(html, selector)`;
- the lookup the row loop performs.

Weights are Dafny `real`s. Exceptions the source does not catch are `Failure` results that propagate, the way they escape in the source.

Points where the code and its own documentation differ, modelled after the code:

- Deduplication of results compares whole `{link, title, descr}` records, not links (search_engines.py:440). Two results with the same link but different titles both survive (`Engines.DuplicateLinksSurvive`).
- `str_find_all` is an unanchored case-insensitive search, not a whole-word one (crawler.py:115).
- Only `ConnectionError` is caught around the download and scoring (search_engines.py:510). A `ZeroDivisionError` from `words_find` on an empty word list escapes `get`. With the driver's table, this happens for every downloaded home page of a company whose name has no word longer than two characters, such as "HP" (`Crawler.MainWeightFails`, `Crawler.TwoLetterNameRaises`).
- The threshold test is `>=`, although the constructor's documentation speaks of URLs "below or equal" the threshold being filtered.
- Rows are numbered from 1 while `start` defaults to 0 (crawler.py:238, 282). So `-s n` skips n - 1 rows, although the help text says it skips n. `-l n` on its own looks up n - 1 rows (`Crawler.StartSkipsOneRowFewer`, `Crawler.LimitAloneOneRowFewer`). The loop is modelled as the code runs it.

## Model

| member | source | states |
|---|---|---|
| Text.Strip | search_engines.py:64 | `str.strip()`, with whitespace as Python's `str.isspace` defines it: the result has no edge whitespace and is the slice of the input between two all-whitespace runs |
| Text.SplitJoinRoundTrip | crawler.py:34 | `str.split()` recovers any list of non-empty whitespace-free tokens joined by single spaces |
| Text.IdeographicSpaceSplits | crawler.py:34 | an ideographic space (U+3000) separates words, as it does for Python's `str.split()` |
| Text.SplitKeepsEveryOtherChar | crawler.py:34 | the tokens of `str.split()`, concatenated, are exactly the input's non-whitespace characters in order |
| Text.ReplaceEachIsWithout | search_engines.py:60-62 | replacing each filter character by `''` in turn equals deleting every character of the set in one pass |
| Text.SplitSentencesRoundTrip | crawler.py:84 | splitting on `.`, `!`, `?` and interleaving the pieces with the marks gives back the text |
| Text.SplitSentences | crawler.py:84 | the split gives one piece more than there are sentence marks, and no piece contains a mark |
| Text.StripAccentsIdempotent | search_engines.py:616-629 | stripping accents twice is stripping them once |
| Text.StripAccentsAppend | search_engines.py:628-629 | accent stripping works character by character, so it distributes over concatenation |
| Search.Find | crawler.py:129 | `str.find`: -1 when there is no occurrence, otherwise the first index where `s2` occurs |
| Search.ContainsIgnoringCaseIff | crawler.py:115 | the case-insensitive search succeeds iff some slice of the text equals the pattern ignoring case |
| Search.SearchWord | crawler.py:53 | `\bw\b` with IGNORECASE: the first position where `w` occurs ignoring case with a word boundary on both sides, or -1 if none |
| Engines.FilterQueryString | search_engines.py:49-66 | the filtered query contains no filter character and has no edge whitespace; with no characters to filter it is the stripped query |
| Engines.FilterQueryStringIdempotent | search_engines.py:60-64 | filtering an already filtered query changes nothing |
| Engines.CustomSearchNum | search_engines.py:137 | the Custom Search count is in 1..10: the requested count when it is in range, 10 otherwise |
| Engines.ScrapeSearchNum | search_engines.py:248 | the scraping engine's count is in 1..30: the requested count when it is in range, 10 otherwise |
| Engines.NewCustomSearch | search_engines.py:115-137 | the API key is replaced only when given, the app id only when non-empty, the count is clamped, and the filter defaults to `'",:;` |
| Engines.NewScrapeSearch | search_engines.py:236-248 | the count is clamped to 1..30 and the filter defaults to `'",:;` |
| Engines.RequestFor | search_engines.py:202-205 | the `q` an engine sends holds none of its filter characters and no edge whitespace; `num` is the engine's count |
| Engines.NormalizeItem | search_engines.py:170-174 | an item gives the record (link, title, snippet as descr) iff it has all three keys; otherwise `KeyError` for the first missing key |
| Engines.NormalizeItems | search_engines.py:168-176 | one record per item, same order and contents; a missing key raises `KeyError` at the first bad item |
| Engines.Normalize | search_engines.py:153-176 | absent or empty `items` gives no records; otherwise the per-item normalisation |
| Engines.CustomSearchOutcomeAsWritten | search_engines.py:179-216 | on Python 3.9 an answered request never yields records: it raises `TypeError` from `json.loads(..., encoding='utf-8')` unless the body starts with a byte-order mark, and only a connection error or such a body gives the empty list |
| Engines.CustomSearchOutcome | search_engines.py:153-216 | with `json.loads(self._content)`, a decoded object yields one record per item, in order, holding that item's link, title and snippet, iff every item has the three keys; otherwise `KeyError` for an item lacking one; no connection, a byte-order mark, a body that is not JSON, or no items give the empty list; any other JSON value raises `AttributeError` |
| Engines.AnswerRaisesTypeError | search_engines.py:184 | an answer with one complete item raises `TypeError` as written, and gives that item's record when corrected |
| Engines.AppendNewSpec | search_engines.py:439-441 | appending only unseen records keeps the list duplicate-free and holds exactly the old and the new records |
| Engines.AppendNewOrder | search_engines.py:439-441 | after the append, the records appear in the order of their first occurrence in old list then new records |
| Engines.MergeIntoIsAppendNew | search_engines.py:434-444 | the engine loop equals one unseen-only append of all returned lists concatenated; engines that raised contribute nothing |
| Engines.MergeSpec | search_engines.py:431-444 | the merged list has no duplicates, holds exactly the records some engine returned, and lists them in first-occurrence order across engines and within each engine |
| Engines.MergeOfNothing | search_engines.py:431-444 | when every engine raised or returned nothing, there are no candidates |
| Engines.DuplicateLinksSurvive | search_engines.py:440 | two results with one link and different titles are both kept, because whole records are compared |
| Urls.SplitOfRoot | search_engines.py:453 | `urlsplit` of `scheme://host/` gives back that scheme and host, and raises `ValueError` exactly when the host holds a character whose NFKC form contains one of `/?#@:` (`_checknetloc`) |
| Urls.RootIsHome | search_engines.py:452-454 | every `scheme://host/` link with a lower-case scheme and a clean host is a home page, except that the test raises `ValueError` exactly when NFKC expands a host character to a delimiter |
| Urls.FullwidthSolidusRaises | search_engines.py:452-454 | the home-page test raises `ValueError` on `http://a\uFF0Fb/`, as `urlsplit`'s `_checknetloc` does |
| Urls.HomeIsRoot | search_engines.py:452-454 | conversely, a home page is such a root link whose host NFKC leaves free of delimiters, or the degenerate `:///` |
| Urls.SplitPartsShape | search_engines.py:453 | a successful split yields an empty or lower-case valid scheme and a netloc free of delimiters, with balanced brackets and no character NFKC expands to a delimiter |
| Urls.UrlSplit | search_engines.py:453 | `urlsplit` raises nothing but `ValueError` |
| Urls.ExcludedExtensionIff | search_engines.py:375 | the last-4/last-5 test is the same as "the link ends, ignoring case, with a blocked extension" |
| Urls.PatternOfParts | search_engines.py:403 | any newline-free link of the form `http…://…dom.xx…` matches the alternative built for `dom` |
| Urls.SocialProfileMatches | search_engines.py:403 | the social-domain pattern matches a profile link such as `https://facebook.com/acme` |
| Urls.SocialNameInPathMatches | search_engines.py:403 | the unanchored pattern also matches a domain name appearing only in the path |
| Matching.KeptFromSpec | crawler.py:33-36 | `words_filter` keeps, in increasing index order, exactly the tokens longer than the minimum (all of them when it is 0), each with accents stripped |
| Matching.WordsFilter | crawler.py:18-36 | there are no more words than tokens of the filtered string, and exactly as many with minimum 0 |
| Matching.WordsFilterKeepsAll | crawler.py:33-36 | with minimum 0 the words are the tokens, position by position, with accents stripped |
| Matching.WordsFilterClean | crawler.py:31-36 | every word is whitespace-free, has no combining accent and holds no filtered punctuation |
| Matching.StrFilter | crawler.py:90-100 | `str_filter` leaves no combining accent and, on text already in decomposed form, never lengthens it |
| Matching.StrFilterFixed | crawler.py:100 | `str_filter` only deletes characters, and leaves a stripped unaccented string unchanged |
| Matching.CountFoundExtremes | crawler.py:50-53 | the count of found words is the word total iff all are found, and 0 iff none is |
| Matching.CountFoundAppend | crawler.py:52-53 | the count is additive over word lists |
| Matching.WordsFind | crawler.py:39-55 | `words_find` raises `ZeroDivisionError` iff the word list is empty; otherwise the fraction is in [0,1] |
| Matching.FractionBounds | crawler.py:55 | a count over a positive total lies in [0,1] and reaches 1 only when the count equals the total |
| Matching.WordsFindAll | crawler.py:58-69 | `words_find_all` raises iff the word list is empty |
| Matching.WordsFindAllIff | crawler.py:69 | for a non-empty list, `words_find_all` holds iff every word is found, iff `words_find` is 1 |
| Matching.CountSentences | crawler.py:84-87 | the sentence loop raises iff there is a piece and no word; otherwise at most one count per piece |
| Matching.CountSentencesIsCount | crawler.py:84-87 | for a non-empty list, the loop's count is the number of stripped pieces containing all words |
| Matching.SentenceFind | crawler.py:72-87 | `sentence_find` raises iff the word list is empty; its count is at most the number of sentence pieces |
| Matching.SentenceFindSinglePiece | crawler.py:84-87 | a text without sentence marks counts 1 if the stripped text contains all words, else 0 |
| Matching.StrFindAll | crawler.py:104-115 | `str_find_all` is false for an empty pattern |
| Matching.StrFindAllIff | crawler.py:115 | `str_find_all` holds iff the pattern is non-empty and its accent-stripped form occurs in the text ignoring case |
| Matching.StrFind | crawler.py:118-129 | `str_find` holds iff `s2` occurs in `s` |
| Matching.StrFindEmpty | crawler.py:129 | the empty pattern always matches; a non-empty pattern never matches the empty text |
| Matching.ApplyFilter | search_engines.py:496 | only `words_filter` turns the value into a word list; with no filter the value is used as it is |
| Matching.Match | search_engines.py:508 | a successful match is non-negative, at most 1 except for `sentence_find`, and `sentence_find` is bounded by its pieces |
| Matching.MatchFailsIff | search_engines.py:508 | word matchers raise `ZeroDivisionError` iff there are no words (a plain string counts its characters); `str_find_all` raises `TypeError` on a non-empty list, `str_find` on any list |
| Ranking.FirstUnbound | search_engines.py:398-407 | the first name of a statement list that no scope binds: none iff all are bound, otherwise the least such position |
| Ranking.RunInit | search_engines.py:398-407 | running the constructor body raises `NameError` iff some name it reads is bound nowhere, and then for the first such name |
| Ranking.ProcsUnbound | search_engines.py:402 | `procs` is not a parameter of `__init__`, not a top-level name of search_engines.py, and not a Python 3.9 builtin |
| Ranking.NewFinderAsWritten | search_engines.py:379-402 | the constructor as written raises `NameError("procs")` for every argument list, since the three names read before it are bound |
| Ranking.CorrectedInitIsNewFinder | search_engines.py:379-407 | with `proc` read in place of `procs`, every name is bound and the instance holds the given engines, rule table, home weight, flags and threshold |
| Ranking.View | search_engines.py:499-504 | a cached content text has its accents stripped, except the raw page |
| Ranking.Lookup | search_engines.py:499-504 | a cache lookup gives what computing the text afresh would give, keeps every entry, and adds the looked-up one |
| Ranking.RuleScore | search_engines.py:496-508 | one rule's term raises exactly when its matcher raises, and is non-negative for a non-negative weight |
| Ranking.ScoreRules | search_engines.py:492-508 | the cache handed on after a field's rules still agrees with the page |
| Ranking.ScoreRulesIsSum | search_engines.py:492-508 | the cached rule loop adds to the running weight exactly the sum of the rules' scores on freshly computed texts, and fails with the first failing rule's error |
| Ranking.ScoreTableIsSum | search_engines.py:480-508 | the same for the whole table, where fields absent from the row contribute nothing |
| Ranking.ExcludedIsMinusOne | search_engines.py:456-462 | a candidate with a blocked extension, a social link when skipped, or not home when only home pages are wanted, weighs exactly -1 whatever the download would give |
| Ranking.NoRulesHomeTerm | search_engines.py:466-469 | with no rule table or no row data, a kept candidate weighs its home term |
| Ranking.FetchedWeight | search_engines.py:466-515 | a connection error gives -1; another request error escapes; a page gives the home term plus the table's sum, and fails exactly when the sum fails, with its error |
| Ranking.SplitErrorEscapes | search_engines.py:452-454 | a link `urlsplit` rejects makes `get` raise `ValueError` |
| Ranking.RulesSumNonNegative | search_engines.py:492-508 | non-negative weights give a non-negative field sum |
| Ranking.TableSumNonNegative | search_engines.py:480-508 | non-negative weights give a non-negative table sum |
| Ranking.WeightSign | search_engines.py:460-515 | with non-negative weights, every candidate weight is the -1 sentinel or non-negative |
| Ranking.Weights | search_engines.py:446-515 | one weight per candidate, each computed from that candidate alone; the first failing candidate's error escapes |
| Ranking.FirstMaxIndex | search_engines.py:519 | the stable descending sort's first entry is the first index of a maximal weight |
| Ranking.FirstMaxUnique | search_engines.py:519 | any index that is maximal and strictly above all earlier weights is the one chosen |
| Ranking.Select | search_engines.py:518-524 | a link is chosen iff some weight reaches the threshold, and then it is the first maximal one |
| Ranking.PickLink | search_engines.py:518-521 | a link is returned iff some weight reaches the threshold, and it is the link of the candidate at the first maximal index |
| Ranking.Get | search_engines.py:410-524 | `get` raises iff weighing raises; otherwise it returns the link at the first index of maximal weight iff that weight is at least the threshold, and `None` otherwise |
| Ranking.NoCandidatesNone | search_engines.py:518-524 | with no candidates, `get` returns `None` |
| Crawler.RuleScoreFails | crawler.py:195-228 | in the table's rules, a string rule never raises, and a word rule raises `ZeroDivisionError` iff the value has no word of more than the minimum |
| Crawler.SimpleRulesFail | crawler.py:195-207 | a list of such rules raises iff it has a word rule and the value has no kept word |
| Crawler.SimpleTableFails | crawler.py:194-229 | a table of such lists raises iff some present field with a word rule has no kept word |
| Crawler.ProcTableSimple | crawler.py:194-229 | every weight of the table is non-negative and every rule is a string rule or a two-character word rule |
| Crawler.OnlyNameHasWords | crawler.py:194-229 | only the name field has word rules |
| Crawler.ProcTableFails | crawler.py:194-229 | scoring with the table raises iff the row has a name with no word longer than two characters, and the error is `ZeroDivisionError` |
| Crawler.TwoLetterNameHasNoWords | crawler.py:33-36 | the name "HP" leaves `words_filter` no word |
| Crawler.TwoLetterNameRaises | crawler.py:196-197 | so every page scored for a row named "HP" raises `ZeroDivisionError` |
| Crawler.MainRequest | crawler.py:231-236 | `main` uses one engine, which asks for 30 results for the quoted name with the quotes filtered away |
| Crawler.MainWeightSign | crawler.py:231-236 | every weight `main`'s finder computes is -1 or non-negative |
| Crawler.MainWeightFails | crawler.py:231-236 | for `main`'s finder, weighing a kept, downloaded home page raises iff the row's name has no word longer than two characters |
| Crawler.QuotesFiltered | crawler.py:260 | quoting the name changes nothing once the query filter has removed quote characters |
| Crawler.ProcessRow | crawler.py:260-265 | a missing `name` raises `KeyError` before the lookup; the lookup's exception propagates; after a lookup, a missing `id` raises `KeyError`; otherwise `website` becomes the found link, or an empty cell for `None`, and every other column is kept |
| Crawler.RowOutput | crawler.py:259-269 | a row the window predicate skips is written unchanged; any row written keeps every column but `website` |
| Crawler.CrawlFrom | crawler.py:256-271 | without an error every row is written once, in order, looked up iff the window predicate holds; an error stops the loop at the row that raised, which is not written |
| Crawler.ProcessedAtMostLimit | crawler.py:257-259 | with a positive limit, at most `limit` rows are looked up |
| Crawler.ProcessedWithinWindow | crawler.py:257-259 | from any row number on, the rows looked up fit in what is left of the window `start .. start + limit - 1` |
| Crawler.StartSkipsOneRowFewer | crawler.py:238-259 | with `-s n` alone and no website filled, all rows but the first n - 1 are looked up |
| Crawler.LimitAloneOneRowFewer | crawler.py:238-259 | with `-l n` alone and no website filled, a file of n or more rows has n - 1 rows looked up |
| Crawler.CrawlWritesEveryRow | crawler.py:256-271 | when nothing raises, as many rows are written as read; rows not looked up are unchanged; a looked-up row keeps every column but `website`, which holds the link the lookup found for the quoted name, or an empty cell |

## Left out

- Network traffic: the HTTP requests, the User-Agent rotation (search_engines.py:418-429), `verify=False`, and `SearchEngine.get` (search_engines.py:69-92). An engine's answer and a page download are parameters. Equal links get equal download outcomes.
- HTML scraping: the parsing of Google's result page (`GoogleSearch.results`, `_parse_url`) and the content functions `html_title`, `meta_description`, `h1_text`, `body_text`, `body`. They depend on an HTML parser and on the provider's markup. A content function is the parameter `extract`, which always returns text (see `Ranking.FetchedWeight` below for the exceptions this leaves out).
- JSON decoding: a Custom Search answer is its body together with what decoding it gives: not JSON, an object with or without `items`, or another JSON value. The byte-order-mark test and the `encoding` keyword of `json.loads` are modelled. Decoding itself is not.
- Unicode normalisation: `strip_accents` is modelled as deleting the combining marks U+0300..U+036F. NFD decomposition of precomposed letters and the other `Mn` characters are not modelled.
- Text.StripAccents: its length bound holds for the modelled deletion only. Real NFD can lengthen text, e.g. one Hangul syllable decomposes into three letters, none of them removed.
- Matching.StrFilter: `|r| <= |s|` holds on text that is already in decomposed form, not in general. `str_filter("한")` has length 3 in Python.
- Urls.UrlSplit: `urlsplit` is that of Python 3.9.5 to 3.9.15. Two later 3.9 changes are not modelled. From 3.9.16 a scheme must start with an ASCII letter, so `1a://h/` has no scheme and is not a home page there. From 3.9.17 leading C0 control characters and spaces are stripped first, so ` http://[a/` raises `ValueError` there.
- Urls.UrlSplit: `_checknetloc` is modelled through the fixed set of characters whose NFKC form holds one of `/?#@:`, from Unicode 13.0 data. NFKC itself is not modelled.
- Text.Lower: case folding is ASCII only, and `\b` word characters are ASCII letters, digits and `_`.
- Regular expressions: `str_find_all` and `words_find` search for their pattern literally. Metacharacters in a company name are not interpreted. In Python a name that is not a valid pattern, such as `C++ Ltd`, makes `re.search` raise `re.error` (crawler.py:53, 115), and `get` does not catch it.
- Matching.MatchFailsIff: the failure conditions hold under the literal search. `re.error` for a name that is not a valid pattern is not among them.
- Crawler.ProcTableFails: the same. With a name such as `C++ Ltd`, Python raises `re.error` where the model scores the page.
- Ranking.FetchedWeight: content functions are total in the model. In Python two of them can raise, and `get` catches neither, because it only catches `ConnectionError` (search_engines.py:510). `meta_description` raises `KeyError` for a `<meta name="description">` without `content`, since it catches only `IndexError` (search_engines.py:539-542). `body` returns the `<body>` tag itself, because `html.unescape` hands back an object without `&` unchanged (search_engines.py:593-595). `strip_accents` then raises `TypeError` on it (search_engines.py:502), for every page that has a `<body>`. The driver's table uses `meta_description` but not `body`.
- Floating point: weights are exact reals, so rounding in sums and in `f / len(words)` is not modelled.
- Matching.Match: a `None` filter and `str.strip` are the only filters other than the two library ones. Content functions are the five named selectors plus the raw page; arbitrary callables are not modelled.
- Ranking.Weights: `get` prints each link and connection failure; printing is not modelled.
- Crawler.CrawlFrom: CSV reading and writing, the header, the `excelesc` dialect and the `website` column added when missing are not modelled. A row is a map from column to text. An empty cell for `None` stands for the written `None`. A cell DictReader fills with `None` for a short row is not modelled.
- Command line: getopt, `help_and_quit`, `sleep(15)`, the per-row `print` (beyond raising when `id` is missing), and the global `update` flag, which becomes a parameter.
- Ranking.Get: the engines are taken as a list; passing a single engine instance is not modelled.
- Ranking.TableSum: a row field whose value is `None` is modelled as absent from the row, which is how `get` treats it.

## Findings

| source | as written | input that shows it | evidently intended | confidence | as-written member | corrected member |
|---|---|---|---|---|---|---|
| search_engines.py:379-402 | `__init__` takes the rule table as `proc` but stores `procs`, a name bound nowhere | any construction, e.g. `UrlFinder([GoogleSearch()], proc)` in crawler.py:231-236, raises `NameError` | store the `proc` argument as the rule table | not executed | Ranking.NewFinderAsWritten | Ranking.CorrectedInitIsNewFinder |
| search_engines.py:184 | `json.loads(self._content, encoding='utf-8')`: since Python 3.9 `loads` passes the leftover `encoding` keyword to `JSONDecoder`, which rejects it with `TypeError`; neither `results` nor `get_results` catches it, so `get` drops the engine | any answer without a byte-order mark, e.g. a body decoding to an object with one complete item (`Engines.AnswerRaisesTypeError`) | decode with `json.loads(self._content)` | not executed | Engines.CustomSearchOutcomeAsWritten | Engines.CustomSearchOutcome |

=== FILE: crawler.dfy ===
/** crawler.py's use of the finder: the rule table `main` configures, the
    finder it builds, and the loop over the rows of the input file, which
    decides which rows are looked up and writes every row back.

    Reading and writing CSV, the command line, the pause between lookups
    and the printing are not modelled; a file is a sequence of rows, and
    the lookup of one row is a parameter. */
module Crawler {
  import opened Wrappers
  import opened Errors
  import opened Text
  import opened Engines
  import opened Matching
  import opened Ranking
  import opened Urls

  // ---------------------------------------------------------------- the rule table

  /** crawler.py:195-207: the rules for the company name. */
  const NAME_RULES: seq<Rule> := [
    Rule(AccentFilter, StrFindAllFn, 1.0, HtmlTitle),
    Rule(WordsFilterOf(WORDS_MIN_LENGTH), WordsFindAllFn, 0.3, HtmlTitle),
    Rule(WordsFilterOf(WORDS_MIN_LENGTH), WordsFindFn, 0.1, HtmlTitle),
    Rule(AccentFilter, StrFindAllFn, 1.0, MetaDescription),
    Rule(WordsFilterOf(WORDS_MIN_LENGTH), WordsFindAllFn, 0.3, MetaDescription),
    Rule(WordsFilterOf(WORDS_MIN_LENGTH), WordsFindFn, 0.1, MetaDescription),
    Rule(StripFilter, StrFindAllFn, 1.0, H1Text),
    Rule(WordsFilterOf(WORDS_MIN_LENGTH), WordsFindAllFn, 0.3, H1Text),
    Rule(WordsFilterOf(WORDS_MIN_LENGTH), WordsFindFn, 0.1, H1Text),
    Rule(AccentFilter, StrFindAllFn, 1.0, BodyText),
    Rule(WordsFilterOf(WORDS_MIN_LENGTH), SentenceFindFn, 0.5, BodyText)
  ]

  /** crawler.py:208-217: the rules for the city, and the same for the country. */
  const PLACE_RULES: seq<Rule> := [
    Rule(AccentFilter, StrFindAllFn, 0.1, HtmlTitle),
    Rule(AccentFilter, StrFindAllFn, 0.1, MetaDescription),
    Rule(AccentFilter, StrFindAllFn, 0.05, BodyText)
  ]

  /** crawler.py:218-222. */
  const PHONE_RULES: seq<Rule> := [
    Rule(AccentFilter, StrFindFn, 1.0, HtmlTitle),
    Rule(AccentFilter, StrFindFn, 0.5, MetaDescription),
    Rule(AccentFilter, StrFindFn, 0.1, BodyText)
  ]

  /** crawler.py:223-225. */
  const POSTCODE_RULES: seq<Rule> := [Rule(AccentFilter, StrFindFn, 0.1, BodyText)]

  /** crawler.py:226-228. */
  const STREET_RULES: seq<Rule> := [Rule(AccentFilter, StrFindAllFn, 0.5, BodyText)]

  /** The `proc` dictionary of crawler.py:194-229, in its key order. */
  const PROC_TABLE: RuleTable := [
    ("name", NAME_RULES),
    ("city", PLACE_RULES),
    ("country", PLACE_RULES),
    ("phone", PHONE_RULES),
    ("postcode", POSTCODE_RULES),
    ("street_line_1", STREET_RULES)
  ]

  /** A rule that hands a phrase to `str_find` or `str_find_all`. */
  predicate PhraseRule(rule: Rule) {
    !rule.filter.WordsFilterOf? && (rule.matcher.StrFindAllFn? || rule.matcher.StrFindFn?)
  }

  /** A rule that hands `words_filter(value, n)` to a word matcher. */
  predicate WordRule(rule: Rule, n: int) {
    rule.filter == WordsFilterOf(n) && (rule.matcher.WordsFindFn? || rule.matcher.WordsFindAllFn? || rule.matcher.SentenceFindFn?)
  }

  /** A phrase rule never raises; a word rule raises exactly when the filter
      leaves no word, and then with `ZeroDivisionError`. */
  lemma RuleScoreFails(rule: Rule, value: string, text: string, n: int)
    requires PhraseRule(rule) || WordRule(rule, n)
    ensures RuleScore(rule, value, text).Failure? <==> WordRule(rule, n) && WordsFilter(value, n) == []
    ensures RuleScore(rule, value, text).Failure? ==> RuleScore(rule, value, text).error == ZeroDivisionError
  {
    MatchFailsIff(rule.matcher, text, ApplyFilter(rule.filter, value));
  }

  /** Every rule of the list is a phrase rule or a word rule with minimum `n`. */
  predicate SimpleRules(rules: seq<Rule>, n: int) {
    forall j :: 0 <= j < |rules| ==> PhraseRule(rules[j]) || WordRule(rules[j], n)
  }

  predicate HasWordRule(rules: seq<Rule>, n: int) {
    exists j :: 0 <= j < |rules| && WordRule(rules[j], n)
  }

  /** A list of such rules raises, with `ZeroDivisionError`, exactly when it
      holds a word rule and the value has no word the filter keeps. */
  lemma {:induction false} SimpleRulesFail(rules: seq<Rule>, value: string, html: string,
                                           extract: (string, Selector) -> string, n: int)
    requires SimpleRules(rules, n)
    ensures var s := RulesSum(RuleScore, rules, value, html, extract);
            && (s.Failure? <==> HasWordRule(rules, n) && WordsFilter(value, n) == [])
            && (s.Failure? ==> s.error == ZeroDivisionError)
    decreases |rules|
  {
    if |rules| > 0 {
      RuleScoreFails(rules[0], value, View(html, rules[0].content, extract), n);
      assert SimpleRules(rules[1..], n) by {
        forall j | 0 <= j < |rules[1..]|
          ensures PhraseRule(rules[1..][j]) || WordRule(rules[1..][j], n)
        {
          assert rules[1..][j] == rules[j + 1];
        }
      }
      SimpleRulesFail(rules[1..], value, html, extract, n);
      HasWordRuleCons(rules, n);
    }
  }

  lemma HasWordRuleCons(rules: seq<Rule>, n: int)
    requires |rules| > 0
    ensures HasWordRule(rules, n) <==> WordRule(rules[0], n) || HasWordRule(rules[1..], n)
  {
    if HasWordRule(rules, n) && !WordRule(rules[0], n) {
      var j :| 0 <= j < |rules| && WordRule(rules[j], n);
      assert rules[1..][j - 1] == rules[j];
    }
    if HasWordRule(rules[1..], n) {
      var j :| 0 <= j < |rules[1..]| && WordRule(rules[1..][j], n);
      assert rules[j + 1] == rules[1..][j];
    }
  }

  /** A table whose every field has simple rules. */
  predicate SimpleTable(table: RuleTable, n: int) {
    forall i :: 0 <= i < |table| ==> SimpleRules(table[i].1, n)
  }

  /** The field `entry` is present in `params`, has a word rule, and its
      value has no word the filter keeps. */
  predicate FieldWithoutWords(entry: (string, seq<Rule>), params: Params, n: int) {
    entry.0 in params && HasWordRule(entry.1, n) && WordsFilter(params[entry.0], n) == []
  }

  predicate EmptyWordField(table: RuleTable, params: Params, n: int) {
    exists i :: 0 <= i < |table| && FieldWithoutWords(table[i], params, n)
  }

  lemma EmptyWordFieldCons(table: RuleTable, params: Params, n: int)
    requires |table| > 0
    ensures EmptyWordField(table, params, n) <==> FieldWithoutWords(table[0], params, n) || EmptyWordField(table[1..], params, n)
  {
    if EmptyWordField(table[1..], params, n) {
      var i :| 0 <= i < |table[1..]| && FieldWithoutWords(table[1..][i], params, n);
      assert table[i + 1] == table[1..][i];
    }
    if EmptyWordField(table, params, n) && !FieldWithoutWords(table[0], params, n) {
      var i :| 0 <= i < |table| && FieldWithoutWords(table[i], params, n);
      assert table[1..][i - 1] == table[i];
    }
  }

  lemma {:induction false} SimpleTableFails(table: RuleTable, params: Params, html: string,
                                            extract: (string, Selector) -> string, n: int)
    requires SimpleTable(table, n)
    ensures var s := TableSum(RuleScore, table, params, html, extract);
            && (s.Failure? <==> EmptyWordField(table, params, n))
            && (s.Failure? ==> s.error == ZeroDivisionError)
    decreases |table|
  {
    if |table| > 0 {
      if table[0].0 in params {
        SimpleRulesFail(table[0].1, params[table[0].0], html, extract, n);
      }
      assert SimpleTable(table[1..], n) by {
        forall i | 0 <= i < |table[1..]|
          ensures SimpleRules(table[1..][i].1, n)
        {
          assert table[1..][i] == table[i + 1];
        }
      }
      SimpleTableFails(table[1..], params, html, extract, n);
      EmptyWordFieldCons(table, params, n);
    }
  }

  lemma ProcTableSimple()
    ensures SimpleTable(PROC_TABLE, WORDS_MIN_LENGTH)
    ensures NonNegativeRules(PROC_TABLE)
  {
  }

  /** Only phrase rules: such a list never raises. */
  predicate PhraseRules(rules: seq<Rule>) {
    forall j :: 0 <= j < |rules| ==> PhraseRule(rules[j])
  }

  lemma PhraseRulesHaveNoWordRule(rules: seq<Rule>, n: int)
    requires PhraseRules(rules)
    ensures !HasWordRule(rules, n)
  {
  }

  /** In the table of crawler.py only the name has word rules. */
  lemma OnlyNameHasWords()
    ensures PROC_TABLE[0].0 == "name"
    ensures HasWordRule(PROC_TABLE[0].1, WORDS_MIN_LENGTH)
    ensures forall i :: 1 <= i < |PROC_TABLE| ==> PhraseRules(PROC_TABLE[i].1)
  {
    assert WordRule(NAME_RULES[1], WORDS_MIN_LENGTH);
  }

  /** Scoring a page with the table of crawler.py raises exactly when the
      row has a name and that name has no word longer than two characters
      once punctuation is removed; the error is then `ZeroDivisionError`. */
  lemma ProcTableFails(params: Params, html: string, extract: (string, Selector) -> string)
    ensures var s := TableSum(RuleScore, PROC_TABLE, params, html, extract);
            && (s.Failure? <==> "name" in params && WordsFilter(params["name"], WORDS_MIN_LENGTH) == [])
            && (s.Failure? ==> s.error == ZeroDivisionError)
  {
    ProcTableSimple();
    SimpleTableFails(PROC_TABLE, params, html, extract, WORDS_MIN_LENGTH);
    OnlyNameHasWords();
    if EmptyWordField(PROC_TABLE, params, WORDS_MIN_LENGTH) {
      var i :| 0 <= i < |PROC_TABLE| && FieldWithoutWords(PROC_TABLE[i], params, WORDS_MIN_LENGTH);
      if i != 0 {
        PhraseRulesHaveNoWordRule(PROC_TABLE[i].1, WORDS_MIN_LENGTH);
        assert false;
      }
    }
    assert FieldWithoutWords(PROC_TABLE[0], params, WORDS_MIN_LENGTH) ==> EmptyWordField(PROC_TABLE, params, WORDS_MIN_LENGTH);
  }

  /** A two-letter name such as "HP" leaves `words_filter` nothing to keep. */
  lemma TwoLetterNameHasNoWords()
    ensures WordsFilter("HP", WORDS_MIN_LENGTH) == []
  {
    var s := "HP";
    ReplaceEachIsWithout(s, DEFAULT_FILTER_CHARS);
    WithoutAbsent(s, DEFAULT_FILTER_CHARS);
    StripOfTrimmed(s);
    TokenLengthOfToken(s, "");
    assert s + "" == s && s[..2] == s && s[2..] == "";
    assert FilterQueryString(DEFAULT_FILTER_CHARS, s) == s;
    assert Split(s) == [s] + Split("");
    assert KeptFrom([s], WORDS_MIN_LENGTH, 0) == [] + KeptFrom([s], WORDS_MIN_LENGTH, 1);
    assert WordsFilter(s, WORDS_MIN_LENGTH) == KeptFrom(Split(FilterQueryString(DEFAULT_FILTER_CHARS, s)), WORDS_MIN_LENGTH, 0);
  }

  /** So scoring any page for a row named "HP" raises `ZeroDivisionError`. */
  lemma TwoLetterNameRaises(row: Params, html: string, extract: (string, Selector) -> string)
    requires "name" in row && row["name"] == "HP"
    ensures TableSum(RuleScore, PROC_TABLE, row, html, extract) == Failure(ZeroDivisionError)
  {
    TwoLetterNameHasNoWords();
    ProcTableFails(row, html, extract);
  }

  // ---------------------------------------------------------------- the finder of main

  /** crawler.py:231-236: one scraping engine asking for 30 results, the
      table above, no bonus for home pages, social links skipped, only home
      pages kept, threshold 0.05. */
  const MAIN_FINDER: Finder := NewFinder([NewScrapeSearch(30, None)], Some(PROC_TABLE), 0.0, true, true, 0.05)

  /** The request `main` makes for a row: its one engine is asked for 30
      results, and the quotes around the name are filtered away with the
      other default characters. */
  lemma MainRequest(name: string)
    ensures |MAIN_FINDER.engines| == 1
    ensures RequestFor(MAIN_FINDER.engines[0], Quoted(name)) == Request(FilterQueryString(DEFAULT_FILTER_CHARS, name), 30)
  {
    QuotesFiltered(DEFAULT_FILTER_CHARS, name);
  }

  /** Every weight the finder of `main` computes is -1 or non-negative. */
  lemma MainWeightSign(rec: Record, params: Option<Params>, fetch: string -> FetchOutcome,
                       extract: (string, Selector) -> string)
    ensures var w := CandidateWeight(MAIN_FINDER, rec, params, fetch, extract);
            w.Success? ==> w.value == -1.0 || w.value >= 0.0
  {
    ProcTableSimple();
    WeightSign(MAIN_FINDER, rec, params, fetch, extract);
  }

  /** For the finder of `main`, a home page that passes the pre-check and
      downloads fails to be weighed exactly when the row's name has no word
      longer than two characters: `words_find` then divides by zero and the
      error escapes `get`. */
  lemma MainWeightFails(rec: Record, row: Params, fetch: string -> FetchOutcome,
                        extract: (string, Selector) -> string)
    requires IsHome(rec.link) == Success(true)
    requires !Excluded(MAIN_FINDER, rec.link, true)
    requires fetch(rec.link).Fetched?
    ensures var w := CandidateWeight(MAIN_FINDER, rec, Some(row), fetch, extract);
            && (w.Failure? <==> "name" in row && WordsFilter(row["name"], WORDS_MIN_LENGTH) == [])
            && (w.Failure? ==> w.error == ZeroDivisionError)
  {
    assert MAIN_FINDER.rules == Some(PROC_TABLE);
    FetchedWeight(MAIN_FINDER, rec, Some(row), fetch, extract);
    ProcTableFails(row, fetch(rec.link).html, extract);
  }

  // ---------------------------------------------------------------- the row loop

  /** A row of the input file: column name to value. */
  type Row = map<string, string>

  /** `s.get('website')` is truthy. */
  predicate HasWebsite(row: Row) {
    "website" in row && row["website"] != ""
  }

  /** crawler.py:257-259: row `i` (counted from 1) is looked up unless the
      limit is exhausted, when it is not before `start`, and when it has no
      website yet or updating was asked for. */
  predicate ShouldProcess(i: int, start: int, limit: int, website: bool, update: bool) {
    var brk := limit > 0 && i - start >= limit;
    !brk && i >= start && (!website || update)
  }

  /** `main`'s query for a row: the name in double quotes. */
  function Quoted(name: string): string {
    "\"" + name + "\""
  }

  /** Quotes are among the characters the default query filter deletes, so
      an engine with that filter sends the bare, filtered name. */
  lemma QuotesFiltered(chars: string, name: string)
    requires '"' in chars
    ensures FilterQueryString(chars, Quoted(name)) == FilterQueryString(chars, name)
  {
    var q := "\"";
    assert Without(q, chars) == "" by {
      assert q[0] in chars;
      assert q[1..] == "";
    }
    WithoutAppend(q + name, q, chars);
    WithoutAppend(q, name, chars);
    assert Without(Quoted(name), chars) == Without(name, chars);
    ReplaceEachIsWithout(Quoted(name), chars);
    ReplaceEachIsWithout(name, chars);
  }

  /** Looking up one row: `u.get('"{}"'.format(s['name']), s)`, then
      `s['id']` for the log line, then the found link (or an empty cell for
      `None`) stored under `website`. A missing column raises `KeyError`. */
  function ProcessRow(row: Row, lookup: (string, Row) -> Result<Option<string>, Exception>): (r: Result<Row, Exception>)
    ensures r.Success? ==> "website" in r.value && r.value.Keys == row.Keys + {"website"}
    ensures r.Success? ==> forall k :: k in row && k != "website" ==> r.value[k] == row[k]
    ensures "name" !in row ==> r == Failure(KeyError("name"))
    ensures "name" in row ==>
              var found := lookup(Quoted(row["name"]), row);
              && (found.Failure? ==> r == Failure(found.error))
              && (found.Success? && "id" !in row ==> r == Failure(KeyError("id")))
              && (found.Success? && "id" in row ==> r.Success? && r.value["website"] == found.value.GetOr(""))
  {
    if "name" !in row then Failure(KeyError("name"))
    else
      var link :- lookup(Quoted(row["name"]), row);
      if "id" !in row then Failure(KeyError("id"))
      else Success(row["website" := if link.Some? then link.value else ""])
  }

  /** What the loop leaves behind: the rows written so far, and the
      exception that stopped it, if any. */
  datatype CrawlResult = CrawlResult(written: seq<Row>, error: Option<Exception>)

  /** What the loop writes for row number `i`: the looked-up row if the
      window predicate selects it, the row itself otherwise. */
  function RowOutput(row: Row, i: int, start: int, limit: int, update: bool,
                     lookup: (string, Row) -> Result<Option<string>, Exception>): (r: Result<Row, Exception>)
    ensures !ShouldProcess(i, start, limit, HasWebsite(row), update) ==> r == Success(row)
    ensures r.Success? ==> forall k :: k in row && k != "website" ==> k in r.value && r.value[k] == row[k]
  {
    if ShouldProcess(i, start, limit, HasWebsite(row), update) then ProcessRow(row, lookup) else Success(row)
  }

  /** crawler.py:256-271 from row number `i` on: every row is written once,
      in order, until a lookup raises; the row that raised is not written. */
  function CrawlFrom(rows: seq<Row>, i: int, start: int, limit: int, update: bool,
                     lookup: (string, Row) -> Result<Option<string>, Exception>): (r: CrawlResult)
    ensures |r.written| <= |rows|
    ensures r.error.None? ==> |r.written| == |rows|
    ensures r.error.Some? ==>
              && |r.written| < |rows|
              && RowOutput(rows[|r.written|], i + |r.written|, start, limit, update, lookup) == Failure(r.error.value)
    ensures forall k :: 0 <= k < |r.written| ==> RowOutput(rows[k], i + k, start, limit, update, lookup) == Success(r.written[k])
    decreases |rows|
  {
    if |rows| == 0 then CrawlResult([], None)
    else
      match RowOutput(rows[0], i, start, limit, update, lookup)
      case Failure(e) => CrawlResult([], Some(e))
      case Success(out) =>
        var rest := CrawlFrom(rows[1..], i + 1, start, limit, update, lookup);
        CrawlResult([out] + rest.written, rest.error)
  }

  /** The loop of `main`, rows numbered from 1. */
  function Crawl(rows: seq<Row>, start: int, limit: int, update: bool,
                 lookup: (string, Row) -> Result<Option<string>, Exception>): CrawlResult {
    CrawlFrom(rows, 1, start, limit, update, lookup)
  }

  /** `main` with the finder above: each row is looked up with `get`. */
  function MainLookup(search: (Engine, string) -> EngineOutcome, fetch: string -> FetchOutcome,
                      extract: (string, Selector) -> string): (string, Row) -> Result<Option<string>, Exception> {
    (q: string, row: Row) => Get(MAIN_FINDER, q, Some(row), search, fetch, extract)
  }

  /** How many of the rows from number `i` on are looked up. */
  function ProcessedFrom(rows: seq<Row>, i: int, start: int, limit: int, update: bool): nat
    decreases |rows|
  {
    if |rows| == 0 then 0
    else (if ShouldProcess(i, start, limit, HasWebsite(rows[0]), update) then 1 else 0)
         + ProcessedFrom(rows[1..], i + 1, start, limit, update)
  }

  /** The room left in the window `start .. start + limit - 1` from row
      number `i` on. */
  function WindowLeft(i: int, start: int, limit: int): nat
    requires limit > 0
  {
    if i >= start + limit then 0 else if i >= start then start + limit - i else limit
  }

  lemma {:induction false} ProcessedWithinWindow(rows: seq<Row>, i: int, start: int, limit: int, update: bool)
    requires limit > 0
    ensures ProcessedFrom(rows, i, start, limit, update) <= WindowLeft(i, start, limit)
    decreases |rows|
  {
    if |rows| > 0 {
      ProcessedWithinWindow(rows[1..], i + 1, start, limit, update);
    }
  }

  /** With a positive limit, at most `limit` rows are looked up. */
  lemma ProcessedAtMostLimit(rows: seq<Row>, start: int, limit: int, update: bool)
    requires limit > 0
    ensures ProcessedFrom(rows, 1, start, limit, update) <= limit
  {
    ProcessedWithinWindow(rows, 1, start, limit, update);
  }

  /** No row has a website yet. */
  predicate NoWebsites(rows: seq<Row>) {
    forall k :: 0 <= k < |rows| ==> !HasWebsite(rows[k])
  }

  /** With no limit, the rows from number `i` on that are looked up are
      those numbered `start` or later. */
  lemma {:induction false} StartAloneFrom(rows: seq<Row>, i: int, start: int, update: bool)
    requires NoWebsites(rows)
    ensures ProcessedFrom(rows, i, start, 0, update)
            == if i >= start then |rows| else if start - i >= |rows| then 0 else |rows| - (start - i)
    decreases |rows|
  {
    if |rows| > 0 {
      StartAloneFrom(rows[1..], i + 1, start, update);
    }
  }

  /** With `start` at 0, the rows from number `i` on that are looked up are
      those numbered below `limit`. */
  lemma {:induction false} LimitAloneFrom(rows: seq<Row>, i: int, limit: int, update: bool)
    requires limit > 0 && i >= 0 && NoWebsites(rows)
    ensures ProcessedFrom(rows, i, 0, limit, update)
            == if i >= limit then 0 else if |rows| < limit - i then |rows| else limit - i
    decreases |rows|
  {
    if |rows| > 0 {
      LimitAloneFrom(rows[1..], i + 1, limit, update);
    }
  }

  /** `-s n` on its own skips n - 1 rows, not the n its help text
      announces: rows are numbered from 1 and row n is looked up. */
  lemma StartSkipsOneRowFewer(rows: seq<Row>, n: int, update: bool)
    requires 1 <= n <= |rows| + 1 && NoWebsites(rows)
    ensures ProcessedFrom(rows, 1, n, 0, update) == |rows| - (n - 1)
  {
    StartAloneFrom(rows, 1, n, update);
  }

  /** `-l n` on its own looks up n - 1 rows of a file that has n or more:
      with `start` at 0, row n already exhausts the limit. */
  lemma LimitAloneOneRowFewer(rows: seq<Row>, n: int, update: bool)
    requires n >= 1 && |rows| >= n && NoWebsites(rows)
    ensures ProcessedFrom(rows, 1, 0, n, update) == n - 1
  {
    LimitAloneFrom(rows, 1, n, update);
  }

  /** When no lookup raises, every row is written exactly once and in
      order; rows that are not looked up are written unchanged, and a
      looked-up row differs only in its website, which is the link the lookup
      found, or an empty cell when it found none. */
  lemma CrawlWritesEveryRow(rows: seq<Row>, start: int, limit: int, update: bool,
                            lookup: (string, Row) -> Result<Option<string>, Exception>)
    requires Crawl(rows, start, limit, update, lookup).error.None?
    ensures var out := Crawl(rows, start, limit, update, lookup).written;
            && |out| == |rows|
            && (forall k :: 0 <= k < |rows| && !ShouldProcess(k + 1, start, limit, HasWebsite(rows[k]), update) ==> out[k] == rows[k])
            && (forall k, c :: 0 <= k < |rows| && c in rows[k] && c != "website" ==> c in out[k] && out[k][c] == rows[k][c])
            && (forall k :: 0 <= k < |rows| && ShouldProcess(k + 1, start, limit, HasWebsite(rows[k]), update) ==>
                  && "name" in rows[k] && "id" in rows[k]
                  && lookup(Quoted(rows[k]["name"]), rows[k]).Success?
                  && out[k]["website"] == lookup(Quoted(rows[k]["name"]), rows[k]).value.GetOr(""))
  {
    var out := Crawl(rows, start, limit, update, lookup).written;
    forall k | 0 <= k < |rows|
      ensures RowOutput(rows[k], 1 + k, start, limit, update, lookup) == Success(out[k])
    {
    }
  }
}

=== FILE: engines.dfy ===
/** The search-engine side of search_engines.py: the query-string filter,
    the result-count clamps of both engines, the engines' configuration, the
    normalisation of Custom Search API items into result records, and the
    merge of several engines' result lists into one candidate list.

    The engines' network traffic, the JSON decoder and the HTML scraping of
    the result page are not modelled; an engine's answer to a query is
    an `EngineOutcome` handed in from outside. */
module Engines {
  import opened Wrappers
  import opened Errors
  import opened Text

  // ---------------------------------------------------------------- query filter

  /** The characters `filter_query_string` deletes by default: ' " , : ; */
  const DEFAULT_FILTER_CHARS: string := "'\",:;"

  /** `SearchEngine.filter_query_string(chars)(q)`: deletes every character
      of `chars`, then strips surrounding whitespace. */
  function FilterQueryString(chars: string, q: string): (r: string)
    ensures forall c :: c in r ==> c !in chars
    ensures NoEdgeSpace(r)
    ensures chars == "" ==> r == Strip(q)
  {
    ReplaceEachIsWithout(q, chars);
    if chars == "" then WithoutNothing(q); Strip(ReplaceEach(q, chars))
    else Strip(ReplaceEach(q, chars))
  }

  /** Filtering an already filtered query changes nothing. */
  lemma FilterQueryStringIdempotent(chars: string, q: string)
    ensures FilterQueryString(chars, FilterQueryString(chars, q)) == FilterQueryString(chars, q)
  {
    var r := FilterQueryString(chars, q);
    assert forall k :: 0 <= k < |r| ==> r[k] in r;
    ReplaceEachIsWithout(r, chars);
    WithoutAbsent(r, chars);
    StripOfTrimmed(r);
  }

  // ---------------------------------------------------------------- engines

  /** `SearchEngine.NUM`, the fallback result count. */
  const DEFAULT_NUM := 10

  const DEFAULT_API_KEY := "<Google_App_API_key>"
  const DEFAULT_APP_ID := "<Google_App_Id>"

  /** `GoogleCustomSearch.NUM`: the requested count when it lies in 1..10,
      the default otherwise. */
  function CustomSearchNum(num: int): (n: int)
    ensures 1 <= n <= 10
    ensures 1 <= num <= 10 ==> n == num
    ensures num < 1 || num > 10 ==> n == DEFAULT_NUM
  {
    if num > 10 || num < 1 then DEFAULT_NUM else num
  }

  /** `GoogleSearch.NUM`: the requested count when it lies in 1..30,
      10 otherwise. */
  function ScrapeSearchNum(num: int): (n: int)
    ensures 1 <= n <= 30
    ensures 1 <= num <= 30 ==> n == num
    ensures num < 1 || num > 30 ==> n == 10
  {
    if num < 1 || num > 30 then 10 else num
  }

  /** A configured search engine. `filterChars` are the characters its query
      filter deletes (the source accepts any filter function; every one it
      builds is a `filter_query_string`). */
  datatype Engine =
    | CustomSearch(apiKey: string, appId: string, num: int, filterChars: string)
    | ScrapeSearch(num: int, filterChars: string)

  /** `GoogleCustomSearch(api_key, app_id, num, filter)`: a given API key
      replaces the default even when empty, an application id only when it
      is non-empty, and a missing filter means the default one. */
  function NewCustomSearch(apiKey: Option<string>, appId: Option<string>, num: int, filter: Option<string>): (e: Engine)
    ensures e.CustomSearch?
    ensures e.apiKey == (if apiKey.Some? then apiKey.value else DEFAULT_API_KEY)
    ensures e.appId == (if appId.Some? && appId.value != "" then appId.value else DEFAULT_APP_ID)
    ensures 1 <= e.num <= 10 && (1 <= num <= 10 ==> e.num == num)
    ensures e.filterChars == (if filter.Some? then filter.value else DEFAULT_FILTER_CHARS)
  {
    CustomSearch(
      apiKey.GetOr(DEFAULT_API_KEY),
      if appId.Some? && appId.value != "" then appId.value else DEFAULT_APP_ID,
      CustomSearchNum(num),
      filter.GetOr(DEFAULT_FILTER_CHARS))
  }

  /** `GoogleSearch(num, filter)`. */
  function NewScrapeSearch(num: int, filter: Option<string>): (e: Engine)
    ensures e.ScrapeSearch?
    ensures 1 <= e.num <= 30 && (1 <= num <= 30 ==> e.num == num)
    ensures e.filterChars == (if filter.Some? then filter.value else DEFAULT_FILTER_CHARS)
  {
    ScrapeSearch(ScrapeSearchNum(num), filter.GetOr(DEFAULT_FILTER_CHARS))
  }

  /** The `q` and `num` parameters an engine sends for query `q`. */
  datatype Request = Request(q: string, num: int)

  function RequestFor(e: Engine, q: string): (req: Request)
    ensures forall c :: c in req.q ==> c !in e.filterChars
    ensures NoEdgeSpace(req.q)
    ensures req.num == e.num
  {
    Request(FilterQueryString(e.filterChars, q), e.num)
  }

  // ---------------------------------------------------------------- results

  /** One search result, `{'link': ..., 'title': ..., 'descr': ...}`. */
  datatype Record = Record(link: string, title: string, descr: string)

  /** One element of the API response's `items` array, as a string dictionary. */
  type ApiItem = map<string, string>

  predicate HasResultKeys(item: ApiItem) {
    "link" in item && "title" in item && "snippet" in item
  }

  /** The key whose lookup fails first in `_normalize` (link, then title,
      then snippet). */
  function FirstMissingKey(item: ApiItem): string
    requires !HasResultKeys(item)
  {
    if "link" !in item then "link" else if "title" !in item then "title" else "snippet"
  }

  /** The record `_normalize` builds from one item. */
  function NormalizeItem(item: ApiItem): (r: Result<Record, Exception>)
    ensures r.Success? <==> HasResultKeys(item)
    ensures r.Success? ==> r.value == Record(item["link"], item["title"], item["snippet"])
    ensures r.Failure? ==> r.error == KeyError(FirstMissingKey(item))
  {
    if "link" !in item then Failure(KeyError("link"))
    else if "title" !in item then Failure(KeyError("title"))
    else if "snippet" !in item then Failure(KeyError("snippet"))
    else Success(Record(item["link"], item["title"], item["snippet"]))
  }

  function NormalizeItems(items: seq<ApiItem>): (r: Result<seq<Record>, Exception>)
    ensures r.Success? <==> forall k :: 0 <= k < |items| ==> HasResultKeys(items[k])
    ensures r.Success? ==> |r.value| == |items|
    ensures r.Success? ==> forall k :: 0 <= k < |items| ==>
              r.value[k] == Record(items[k]["link"], items[k]["title"], items[k]["snippet"])
    ensures r.Failure? ==>
              exists k :: (0 <= k < |items| && !HasResultKeys(items[k])
                           && r.error == KeyError(FirstMissingKey(items[k]))
                           && forall m :: 0 <= m < k ==> HasResultKeys(items[m]))
  {
    if |items| == 0 then Success([])
    else
      var head :- NormalizeItem(items[0]);
      var tail :- NormalizeItems(items[1..]);
      Success([head] + tail)
  }

  /** `GoogleCustomSearch._normalize(j)`, given `j.get('items')`: one record
      per item, in order, with the item's `snippet` as the record's `descr`;
      an absent or empty item list gives no records; an item without one of
      the three keys raises `KeyError`. */
  function Normalize(items: Option<seq<ApiItem>>): (r: Result<seq<Record>, Exception>)
    ensures items.None? || items.value == [] ==> r == Success([])
    ensures items.Some? ==> r == NormalizeItems(items.value)
  {
    if items.None? || items.value == [] then Success([]) else NormalizeItems(items.value)
  }

  /** What an engine's `get_results(q)` did: returned a list, or raised. */
  datatype EngineOutcome = Returned(records: seq<Record>) | Raised(error: Exception)

  /** What JSON decoding makes of a response body: not JSON at all, an
      object with or without an `items` array, or another JSON value. The
      decoder itself is not modelled. */
  datatype Json = NotJson | JsonObject(items: Option<seq<ApiItem>>) | JsonOther

  /** The Custom Search API's answer to the request: no connection, or a
      body together with what decoding it gives. */
  datatype ApiResponse = ConnectionFailed | Answered(body: string, json: Json)

  /** `json.loads` refuses text that starts with a byte-order mark. */
  predicate StartsWithBom(body: string) {
    |body| > 0 && body[0] == '\U{FEFF}'
  }

  /** `json.loads(body)`: text starting with a byte-order mark, and text
      that is not JSON, raise `JSONDecodeError`; otherwise the decoded
      value. */
  function Loads(body: string, json: Json): (r: Result<Json, Exception>)
    ensures r.Failure? <==> StartsWithBom(body) || json.NotJson?
    ensures r.Failure? ==> r.error == JSONDecodeError
    ensures r.Success? ==> r.value == json
  {
    if StartsWithBom(body) || json.NotJson? then Failure(JSONDecodeError) else Success(json)
  }

  /** `json.loads(body, encoding='utf-8')` on Python 3.9: after the
      byte-order-mark test, the leftover keyword makes `loads` construct
      `JSONDecoder(encoding='utf-8')`, and `JSONDecoder.__init__` has no
      such parameter, so it raises `TypeError` before decoding anything. */
  function LoadsWithEncoding(body: string, json: Json): (r: Result<Json, Exception>)
    ensures r.Failure?
    ensures r.error == (if StartsWithBom(body) then JSONDecodeError else TypeError)
  {
    if StartsWithBom(body) then Failure(JSONDecodeError) else Failure(TypeError)
  }

  /** `results()` given what `json.loads` did: `JSONDecodeError` is caught
      and gives no records; a decoded object is normalised; `j.get` on any
      other JSON value raises `AttributeError`. */
  function ResultsOf(loaded: Result<Json, Exception>): Result<seq<Record>, Exception> {
    match loaded
    case Failure(e) => if e == JSONDecodeError then Success([]) else Failure(e)
    case Success(j) => if j.JsonObject? then Normalize(j.items) else Failure(AttributeError)
  }

  /** An engine's outcome from what it computed. */
  function OutcomeOf(r: Result<seq<Record>, Exception>): EngineOutcome {
    if r.Success? then Returned(r.value) else Raised(r.error)
  }

  /** `GoogleCustomSearch.get_results` after the request, as written and run
      on Python 3.9: only a connection error or a byte-order mark gives a
      result, the empty list; every other answer raises `TypeError` from
      `json.loads`, which neither `results` nor `get_results` catches. */
  function CustomSearchOutcomeAsWritten(resp: ApiResponse): (o: EngineOutcome)
    ensures o.Returned? ==> o.records == []
    ensures o.Raised? <==> resp.Answered? && !StartsWithBom(resp.body)
    ensures o.Raised? ==> o.error == TypeError
  {
    match resp
    case ConnectionFailed => Returned([])
    case Answered(body, json) => OutcomeOf(ResultsOf(LoadsWithEncoding(body, json)))
  }

  /** `GoogleCustomSearch.get_results` after the request, with
      `json.loads(self._content)`: no records for a connection error, a
      byte-order mark, a body that is not JSON, or an object with no or empty
      `items`; otherwise exactly one record per item, in order, with the
      item's link, title and snippet. It raises `AttributeError` for a JSON
      value that is not an object and `KeyError` for an item that lacks a
      key. */
  function CustomSearchOutcome(resp: ApiResponse): (o: EngineOutcome)
    ensures resp.ConnectionFailed? || StartsWithBom(resp.body) || resp.json.NotJson? ==> o == Returned([])
    ensures resp.Answered? && !StartsWithBom(resp.body) && resp.json.JsonOther? ==> o == Raised(AttributeError)
    ensures resp.Answered? && !StartsWithBom(resp.body) && resp.json.JsonObject? ==>
              var items := if resp.json.items.Some? then resp.json.items.value else [];
              && (o.Returned? <==> forall k :: 0 <= k < |items| ==> HasResultKeys(items[k]))
              && (o.Returned? ==> |o.records| == |items|
                                  && forall k :: 0 <= k < |items| ==>
                                       o.records[k] == Record(items[k]["link"], items[k]["title"], items[k]["snippet"]))
              && (o.Raised? ==> exists k :: && 0 <= k < |items| && !HasResultKeys(items[k])
                                            && o.error == KeyError(FirstMissingKey(items[k])))
  {
    match resp
    case ConnectionFailed => Returned([])
    case Answered(body, json) => OutcomeOf(ResultsOf(Loads(body, json)))
  }

  /** The text of an answer holding one complete item. */
  const ONE_ITEM_BODY: string := "{" + "\"items\": [{\"link\": \"l\", \"title\": \"t\", \"snippet\": \"s\"}]}"

  /** A well-formed answer with one complete item: the code as written
      raises `TypeError`, where the corrected call returns the item's
      record. */
  lemma AnswerRaisesTypeError()
    ensures var item := map["link" := "l", "title" := "t", "snippet" := "s"];
            var resp := Answered(ONE_ITEM_BODY, JsonObject(Some([item])));
            && CustomSearchOutcomeAsWritten(resp) == Raised(TypeError)
            && CustomSearchOutcome(resp) == Returned([Record("l", "t", "s")])
  {
    assert ONE_ITEM_BODY[0] == "{"[0];
    var item := map["link" := "l", "title" := "t", "snippet" := "s"];
    assert HasResultKeys(item) && item["link"] == "l" && item["title"] == "t" && item["snippet"] == "s";
    var r := NormalizeItems([item]);
    assert r.Success? && |r.value| == 1 && r.value[0] == Record("l", "t", "s");
  }

  // ---------------------------------------------------------------- merge

  predicate NoDuplicates<T(==)>(s: seq<T>) {
    forall i, j :: 0 <= i < j < |s| ==> s[i] != s[j]
  }

  /** Position of the first occurrence of `x` in `s`. */
  function IndexOf<T(==)>(s: seq<T>, x: T): (r: nat)
    requires x in s
    ensures r < |s| && s[r] == x
    ensures forall k :: 0 <= k < r ==> s[k] != x
  {
    if s[0] == x then 0 else 1 + IndexOf(s[1..], x)
  }

  /** The records every engine that returned contributed, engine by engine. */
  function Flatten(os: seq<EngineOutcome>): seq<Record> {
    if |os| == 0 then []
    else (if os[0].Returned? then os[0].records else []) + Flatten(os[1..])
  }

  /** The loop `for r in res: if r not in results: results.append(r)`. */
  function AppendNew(acc: seq<Record>, rs: seq<Record>): seq<Record>
    decreases |rs|
  {
    if |rs| == 0 then acc
    else AppendNew(if rs[0] in acc then acc else acc + [rs[0]], rs[1..])
  }

  /** The loop keeps what it collected, adds nothing twice, and adds every
      record it sees. */
  lemma {:induction false} AppendNewSpec(acc: seq<Record>, rs: seq<Record>)
    requires NoDuplicates(acc)
    ensures NoDuplicates(AppendNew(acc, rs))
    ensures forall x :: x in AppendNew(acc, rs) <==> x in acc || x in rs
    decreases |rs|
  {
    if |rs| > 0 {
      var acc' := if rs[0] in acc then acc else acc + [rs[0]];
      AppendNewSpec(acc', rs[1..]);
      assert rs == [rs[0]] + rs[1..];
    }
  }

  /** Lines 433-441 of `UrlFinder.get`: each engine's records are appended
      in turn, skipping records already collected; an engine that raised
      contributes nothing. */
  function Merge(os: seq<EngineOutcome>): seq<Record> {
    MergeInto([], os)
  }

  function MergeInto(acc: seq<Record>, os: seq<EngineOutcome>): seq<Record>
    decreases |os|
  {
    if |os| == 0 then acc
    else MergeInto(if os[0].Returned? then AppendNew(acc, os[0].records) else acc, os[1..])
  }

  lemma SliceOfAppend<T>(a: seq<T>, b: seq<T>)
    requires |a| > 0
    ensures (a + b)[0] == a[0] && (a + b)[1..] == a[1..] + b
  {
  }

  lemma {:induction false} AppendNewTwice(acc: seq<Record>, a: seq<Record>, b: seq<Record>)
    ensures AppendNew(AppendNew(acc, a), b) == AppendNew(acc, a + b)
    decreases |a|
  {
    if |a| == 0 {
      assert a + b == b;
      assert AppendNew(acc, a) == acc;
    } else {
      SliceOfAppend(a, b);
      var acc' := if a[0] in acc then acc else acc + [a[0]];
      assert AppendNew(acc, a) == AppendNew(acc', a[1..]);
      assert AppendNew(acc, a + b) == AppendNew(acc', a[1..] + b);
      AppendNewTwice(acc', a[1..], b);
    }
  }

  /** Merging engine by engine is one pass over all records in engine order. */
  lemma {:induction false} MergeIntoIsAppendNew(acc: seq<Record>, os: seq<EngineOutcome>)
    ensures MergeInto(acc, os) == AppendNew(acc, Flatten(os))
    decreases |os|
  {
    if |os| > 0 {
      var head := if os[0].Returned? then os[0].records else [];
      var acc' := if os[0].Returned? then AppendNew(acc, os[0].records) else acc;
      MergeIntoIsAppendNew(acc', os[1..]);
      AppendNewTwice(acc, head, Flatten(os[1..]));
    }
  }

  /** A record is among the flattened results exactly when some engine
      returned it. */
  lemma {:induction false} FlattenMembership(os: seq<EngineOutcome>, x: Record)
    ensures x in Flatten(os) <==> exists k :: 0 <= k < |os| && os[k].Returned? && x in os[k].records
    decreases |os|
  {
    if |os| > 0 {
      FlattenMembership(os[1..], x);
      if exists k :: 0 <= k < |os| - 1 && os[1..][k].Returned? && x in os[1..][k].records {
        var k :| 0 <= k < |os| - 1 && os[1..][k].Returned? && x in os[1..][k].records;
        assert os[k + 1] == os[1..][k];
      }
      if exists k :: 0 <= k < |os| && os[k].Returned? && x in os[k].records {
        var k :| 0 <= k < |os| && os[k].Returned? && x in os[k].records;
        if k > 0 {
          assert os[1..][k - 1] == os[k];
        }
      }
    }
  }

  lemma IndexOfIsFirst<T>(s: seq<T>, x: T, k: nat)
    requires k < |s| && s[k] == x
    requires forall m :: 0 <= m < k ==> s[m] != x
    ensures IndexOf(s, x) == k
  {
  }

  lemma IndexOfAppend<T>(a: seq<T>, b: seq<T>, x: T)
    requires x in a + b
    ensures x in a ==> IndexOf(a + b, x) == IndexOf(a, x)
    ensures x !in a ==> IndexOf(a + b, x) == |a| + IndexOf(b, x)
  {
    if x in a {
      IndexOfIsFirst(a + b, x, IndexOf(a, x));
    } else {
      assert x in b;
      var k := IndexOf(b, x);
      assert (a + b)[|a| + k] == x;
      IndexOfIsFirst(a + b, x, |a| + k);
    }
  }

  /** Records keep the order of their first occurrence in `acc + rs`. */
  predicate OrderedByFirstOccurrence(r: seq<Record>, all: seq<Record>)
    requires forall x :: x in r ==> x in all
  {
    forall i, j :: 0 <= i < j < |r| ==> IndexOf(all, r[i]) < IndexOf(all, r[j])
  }

  lemma OrderedWhenDistinct(acc: seq<Record>)
    requires NoDuplicates(acc)
    ensures OrderedByFirstOccurrence(acc, acc)
  {
    forall i | 0 <= i < |acc|
      ensures IndexOf(acc, acc[i]) == i
    {
      IndexOfIsFirst(acc, acc[i], i);
    }
  }

  /** Inserting an already-collected record into the remaining input shifts
      every later first occurrence by one and leaves the order intact. */
  lemma OrderedAfterSkip(acc: seq<Record>, x: Record, rest: seq<Record>, r: seq<Record>)
    requires x in acc
    requires forall y :: y in r ==> y in acc + rest
    requires OrderedByFirstOccurrence(r, acc + rest)
    ensures forall y :: y in r ==> y in acc + ([x] + rest)
    ensures OrderedByFirstOccurrence(r, acc + ([x] + rest))
  {
    var g := acc + rest;
    var f := acc + ([x] + rest);
    forall y | y in g
      ensures y in f
      ensures y in acc ==> IndexOf(f, y) == IndexOf(g, y) < |acc|
      ensures y !in acc ==> IndexOf(f, y) == IndexOf(g, y) + 1 && IndexOf(g, y) >= |acc|
    {
      IndexOfAppend(acc, rest, y);
      IndexOfAppend(acc, [x] + rest, y);
      if y !in acc {
        IndexOfAppend([x], rest, y);
      }
    }
  }

  lemma OrderedAfterAppend(acc: seq<Record>, x: Record, rest: seq<Record>, r: seq<Record>)
    requires forall y :: y in r ==> y in (acc + [x]) + rest
    requires OrderedByFirstOccurrence(r, (acc + [x]) + rest)
    ensures forall y :: y in r ==> y in acc + ([x] + rest)
    ensures OrderedByFirstOccurrence(r, acc + ([x] + rest))
  {
    assert (acc + [x]) + rest == acc + ([x] + rest);
  }

  lemma {:induction false} AppendNewOrder(acc: seq<Record>, rs: seq<Record>)
    requires NoDuplicates(acc)
    ensures forall x :: x in AppendNew(acc, rs) ==> x in acc + rs
    ensures OrderedByFirstOccurrence(AppendNew(acc, rs), acc + rs)
    decreases |rs|
  {
    if |rs| == 0 {
      assert acc + rs == acc;
      OrderedWhenDistinct(acc);
    } else {
      var x := rs[0];
      var rest := rs[1..];
      var acc' := if x in acc then acc else acc + [x];
      var r := AppendNew(acc', rest);
      assert AppendNew(acc, rs) == r;
      assert rs == [x] + rest;
      AppendNewOrder(acc', rest);
      AppendNewSpec(acc', rest);
      if x !in acc {
        OrderedAfterAppend(acc, x, rest, r);
      } else {
        OrderedAfterSkip(acc, x, rest, r);
      }
    }
  }

  /** The merged candidate list (search_engines.py:433-441) holds no record
      twice, holds exactly the records some engine returned, and lists them
      in the order of their first occurrence across the engines, engine by
      engine. */
  lemma MergeSpec(os: seq<EngineOutcome>)
    ensures NoDuplicates(Merge(os))
    ensures forall x :: x in Merge(os) <==> exists k :: 0 <= k < |os| && os[k].Returned? && x in os[k].records
    ensures forall x :: x in Merge(os) ==> x in Flatten(os)
    ensures OrderedByFirstOccurrence(Merge(os), Flatten(os))
  {
    MergeIntoIsAppendNew([], os);
    AppendNewSpec([], Flatten(os));
    AppendNewOrder([], Flatten(os));
    assert [] + Flatten(os) == Flatten(os);
    forall x
      ensures x in Merge(os) <==> exists k :: 0 <= k < |os| && os[k].Returned? && x in os[k].records
    {
      FlattenMembership(os, x);
    }
  }

  /** When no engine returns a record, the merged list is empty. */
  lemma {:induction false} MergeOfNothing(os: seq<EngineOutcome>)
    requires forall k :: 0 <= k < |os| ==> os[k].Raised? || os[k].records == []
    ensures Merge(os) == []
    decreases |os|
  {
    MergeIntoIsAppendNew([], os);
    FlattenOfNothing(os);
  }

  lemma {:induction false} FlattenOfNothing(os: seq<EngineOutcome>)
    requires forall k :: 0 <= k < |os| ==> os[k].Raised? || os[k].records == []
    ensures Flatten(os) == []
    decreases |os|
  {
    if |os| > 0 {
      FlattenOfNothing(os[1..]);
    }
  }

  /** Records are compared whole: two results with the same link but
      different titles are both kept. */
  lemma DuplicateLinksSurvive()
    ensures Merge([Returned([Record("https://acme.com/", "Acme", ""), Record("https://acme.com/", "ACME Corp", "")])])
            == [Record("https://acme.com/", "Acme", ""), Record("https://acme.com/", "ACME Corp", "")]
  {
  }
}

=== FILE: errors.dfy ===
/** The Python exceptions that can escape the modelled operations. A `Failure`
    carrying one of these means the source raises it to its caller. */
module Errors {

  datatype Exception =
    | ZeroDivisionError           // words_find on an empty word list
    | TypeError                   // a string matcher handed a word list
    | KeyError(key: string)       // a missing dictionary key
    | NameError(name: string)     // an undefined variable
    | ValueError                  // urlsplit on an unbalanced IPv6 bracket, or a location whose NFKC form holds one of `/?#@:`
    | RequestError                // a request failure other than a connection error
    | AttributeError              // `j.get` on a decoded JSON value that is not an object
    | JSONDecodeError             // `json.loads` on undecodable text (caught by `results`)
}

=== FILE: matching.dfy ===
/** The string filters and matchers of crawler.py that a rule table is built
    from, and the closed datatypes `Filter` and `MatchFn` that name them.

    A filter turns a field value into a query: either a phrase (`str`) or a
    list of words. A matcher scores a page text against a query. Python lets
    any filter feed any matcher; the combinations that are not type-correct
    in Python (a list handed to `str.find`, a non-empty list handed to
    `strip_accents`) raise `TypeError`, and a phrase handed to a word matcher
    is iterated character by character, as Python does. */
module Matching {
  import opened Wrappers
  import opened Errors
  import opened Text
  import opened Search
  import opened Engines

  // ---------------------------------------------------------------- filters

  /** The default `num_chr` of `words_filter`. */
  const WORDS_MIN_LENGTH: int := 2

  /** Whether `words_filter` keeps a token: `num_chr == 0 or len(w) > num_chr`. */
  predicate KeepsToken(minLen: int, w: string) {
    minLen == 0 || |w| > minLen
  }

  /** The accent-stripped tokens of `ts[i..]` that `KeepsToken` accepts. */
  function KeptFrom(ts: seq<string>, minLen: int, i: nat): seq<string>
    requires i <= |ts|
    decreases |ts| - i
  {
    if i == |ts| then []
    else (if KeepsToken(minLen, ts[i]) then [StripAccents(ts[i])] else []) + KeptFrom(ts, minLen, i + 1)
  }

  /** The positions of `ts[i..]` whose tokens are kept, in increasing order. */
  function KeptIndicesFrom(ts: seq<string>, minLen: int, i: nat): seq<nat>
    requires i <= |ts|
    decreases |ts| - i
  {
    if i == |ts| then []
    else (if KeepsToken(minLen, ts[i]) then [i] else []) + KeptIndicesFrom(ts, minLen, i + 1)
  }

  /** `KeptFrom` picks out exactly the kept tokens, in their order: there is
      a strictly increasing list of positions, covering every kept position
      and nothing else, whose tokens (accent-stripped) make up the result. */
  lemma {:induction false} KeptFromSpec(ts: seq<string>, minLen: int, i: nat)
    requires i <= |ts|
    ensures var r := KeptFrom(ts, minLen, i);
            var idx := KeptIndicesFrom(ts, minLen, i);
            && |idx| == |r|
            && (forall k :: 0 <= k < |idx| ==> i <= idx[k] < |ts| && KeepsToken(minLen, ts[idx[k]]) && r[k] == StripAccents(ts[idx[k]]))
            && (forall k, l :: 0 <= k < l < |idx| ==> idx[k] < idx[l])
            && (forall j :: i <= j < |ts| && KeepsToken(minLen, ts[j]) ==> j in idx)
    decreases |ts| - i
  {
    if i < |ts| {
      KeptFromSpec(ts, minLen, i + 1);
    }
  }

  /** `words_filter(s, num_chr)`: the whitespace tokens of the
      punctuation-filtered `s` that are longer than `num_chr` (all of them
      when `num_chr` is 0), each with its accents stripped. */
  function WordsFilter(s: string, minLen: int): (r: seq<string>)
    ensures |r| <= |Split(FilterQueryString(DEFAULT_FILTER_CHARS, s))|
    ensures minLen == 0 ==> |r| == |Split(FilterQueryString(DEFAULT_FILTER_CHARS, s))|
  {
    var ts := Split(FilterQueryString(DEFAULT_FILTER_CHARS, s));
    KeptFromSpec(ts, minLen, 0);
    KeptFromLength(ts, minLen, 0);
    KeptFrom(ts, minLen, 0)
  }

  lemma {:induction false} KeptFromLength(ts: seq<string>, minLen: int, i: nat)
    requires i <= |ts|
    ensures |KeptFrom(ts, minLen, i)| <= |ts| - i
    ensures minLen == 0 ==> |KeptFrom(ts, minLen, i)| == |ts| - i
    decreases |ts| - i
  {
    if i < |ts| {
      KeptFromLength(ts, minLen, i + 1);
    }
  }

  /** With `num_chr == 0` nothing is dropped: the result is the list of
      tokens, each accent-stripped. */
  lemma WordsFilterKeepsAll(s: string)
    ensures var ts := Split(FilterQueryString(DEFAULT_FILTER_CHARS, s));
            var r := WordsFilter(s, 0);
            |r| == |ts| && forall k :: 0 <= k < |ts| ==> r[k] == StripAccents(ts[k])
  {
    var ts := Split(FilterQueryString(DEFAULT_FILTER_CHARS, s));
    KeptFromSpec(ts, 0, 0);
    KeptFromLength(ts, 0, 0);
    var idx := KeptIndicesFrom(ts, 0, 0);
    AllIndicesIdentity(idx, |ts|);
  }

  /** A strictly increasing list of `n` indices below `n` is `0, 1, ..., n-1`. */
  lemma {:induction false} AllIndicesIdentity(idx: seq<nat>, n: nat)
    requires |idx| == n
    requires forall k :: 0 <= k < |idx| ==> idx[k] < n
    requires forall k, l :: 0 <= k < l < |idx| ==> idx[k] < idx[l]
    ensures forall k :: 0 <= k < |idx| ==> idx[k] == k
  {
    forall k | 0 <= k < |idx|
      ensures idx[k] == k
    {
      IncreasingLowerBound(idx, k);
      IncreasingUpperBound(idx, n, k);
    }
  }

  lemma {:induction false} IncreasingLowerBound(idx: seq<nat>, k: nat)
    requires k < |idx|
    requires forall a, b :: 0 <= a < b < |idx| ==> idx[a] < idx[b]
    ensures idx[k] >= k
    decreases k
  {
    if k > 0 {
      IncreasingLowerBound(idx, k - 1);
    }
  }

  lemma {:induction false} IncreasingUpperBound(idx: seq<nat>, n: nat, k: nat)
    requires k < |idx| == n
    requires forall a :: 0 <= a < |idx| ==> idx[a] < n
    requires forall a, b :: 0 <= a < b < |idx| ==> idx[a] < idx[b]
    ensures idx[k] <= k
    decreases n - k
  {
    if k + 1 < n {
      IncreasingUpperBound(idx, n, k + 1);
    }
  }

  /** Every word `words_filter` returns is free of whitespace, of the
      filtered punctuation and of combining marks. */
  lemma WordsFilterClean(s: string, minLen: int)
    ensures forall k :: 0 <= k < |WordsFilter(s, minLen)| ==>
              var w := WordsFilter(s, minLen)[k];
              NoSpace(w) && Unmarked(w) && forall c :: c in w ==> c !in DEFAULT_FILTER_CHARS
  {
    var q := FilterQueryString(DEFAULT_FILTER_CHARS, s);
    var ts := Split(q);
    KeptFromSpec(ts, minLen, 0);
    SplitChars(q);
    var r := WordsFilter(s, minLen);
    var idx := KeptIndicesFrom(ts, minLen, 0);
    forall k | 0 <= k < |r|
      ensures NoSpace(r[k]) && Unmarked(r[k]) && forall c :: c in r[k] ==> c !in DEFAULT_FILTER_CHARS
    {
      var t := ts[idx[k]];
      StripAccentsChars(t);
      forall j | 0 <= j < |r[k]|
        ensures !IsSpace(r[k][j])
      {
        assert r[k][j] in t;
      }
    }
  }

  /** The tokens of `str.split()` consist of characters of the input. */
  lemma {:induction false} SplitChars(s: string)
    ensures forall k, c :: 0 <= k < |Split(s)| && c in Split(s)[k] ==> c in s
    decreases |s|
  {
    if |s| > 0 {
      if IsSpace(s[0]) {
        SplitChars(s[1..]);
        assert forall c :: c in s[1..] ==> c in s;
      } else {
        var n := TokenLength(s);
        SplitChars(s[n..]);
        assert forall c :: c in s[..n] ==> c in s;
        assert forall c :: c in s[n..] ==> c in s;
      }
    }
  }

  /** Accent stripping only deletes characters. */
  lemma {:induction false} StripAccentsChars(s: string)
    ensures forall c :: c in StripAccents(s) ==> c in s
    decreases |s|
  {
    if |s| > 0 {
      StripAccentsChars(s[1..]);
    }
  }

  /** `str_filter(s)`: `strip_accents(s.strip())`. */
  function StrFilter(s: string): (r: string)
    ensures Unmarked(r)
    ensures |r| <= |s|
  {
    StripAccents(Strip(s))
  }

  /** `str_filter` keeps only characters of its input, and a value with no
      edge whitespace and no combining marks passes through unchanged. */
  lemma StrFilterFixed(s: string)
    ensures forall c :: c in StrFilter(s) ==> c in s
    ensures NoEdgeSpace(s) && Unmarked(s) ==> StrFilter(s) == s
  {
    StripAccentsChars(Strip(s));
    if NoEdgeSpace(s) && Unmarked(s) {
      StripOfTrimmed(s);
      StripAccentsUnmarked(s);
    }
  }

  // ---------------------------------------------------------------- matchers

  /** How many of `words` occur as whole words in `s`, ignoring case. */
  function CountFound(s: string, words: seq<string>): (n: nat)
    ensures n <= |words|
  {
    if |words| == 0 then 0
    else (if WordFound(s, words[0]) then 1 else 0) + CountFound(s, words[1..])
  }

  /** Every word of `words` occurs as a whole word in `s`, ignoring case. */
  predicate AllFound(s: string, words: seq<string>) {
    forall k :: 0 <= k < |words| ==> WordFound(s, words[k])
  }

  /** Every word is found exactly when the count reaches the number of
      words, and none is found exactly when the count is zero. */
  lemma {:induction false} CountFoundExtremes(s: string, words: seq<string>)
    ensures CountFound(s, words) == |words| <==> AllFound(s, words)
    ensures CountFound(s, words) == 0 <==> forall k :: 0 <= k < |words| ==> !WordFound(s, words[k])
  {
    if |words| > 0 {
      CountFoundExtremes(s, words[1..]);
      assert forall k :: 1 <= k < |words| ==> words[k] == words[1..][k - 1];
      assert forall k :: 0 <= k < |words| - 1 ==> words[1..][k] == words[k + 1];
    }
  }

  /** The count over two lists is the sum of the counts. */
  lemma {:induction false} CountFoundAppend(s: string, a: seq<string>, b: seq<string>)
    ensures CountFound(s, a + b) == CountFound(s, a) + CountFound(s, b)
  {
    if |a| == 0 {
      assert a + b == b;
    } else {
      assert (a + b)[1..] == a[1..] + b;
      CountFoundAppend(s, a[1..], b);
    }
  }

  /** `words_find(s, words)`: the fraction of `words` found as whole words;
      an empty list divides by zero. */
  function WordsFind(s: string, words: seq<string>): (r: Result<real, Exception>)
    ensures r.Failure? <==> |words| == 0
    ensures r.Failure? ==> r.error == ZeroDivisionError
    ensures r.Success? ==> 0.0 <= r.value <= 1.0
  {
    if |words| == 0 then Failure(ZeroDivisionError)
    else
      FractionBounds(CountFound(s, words), |words|);
      Success(CountFound(s, words) as real / |words| as real)
  }

  /** A count out of `n`, as a fraction, lies in [0, 1] and is 1 only when
      the count is `n`. */
  lemma FractionBounds(c: nat, n: nat)
    requires 0 < n && c <= n
    ensures 0.0 <= c as real / n as real <= 1.0
    ensures c as real / n as real >= 1.0 <==> c == n
  {
    var f := c as real / n as real;
    var nr := n as real;
    assert f * nr == c as real;
    if f < 0.0 {
      ScaleMonotone(f, 0.0, nr);
    }
    if f > 1.0 {
      ScaleMonotone(1.0, f, nr);
    }
    if c < n && f >= 1.0 {
      ScaleMonotone(1.0, f, nr);
    }
  }

  /** Multiplying by a positive number keeps the order. */
  lemma ScaleMonotone(a: real, b: real, x: real)
    requires x > 0.0 && a <= b
    ensures a * x <= b * x
  {
    assert b * x - a * x == (b - a) * x;
  }

  /** `words_find_all(s, words)`: `words_find(s, words) >= 1`. */
  function WordsFindAll(s: string, words: seq<string>): (r: Result<bool, Exception>)
    ensures r.Failure? <==> |words| == 0
  {
    var f :- WordsFind(s, words);
    Success(f >= 1.0)
  }

  /** `words_find_all` holds exactly when every word is found, which is
      exactly when `words_find` is 1. */
  lemma WordsFindAllIff(s: string, words: seq<string>)
    requires |words| > 0
    ensures WordsFindAll(s, words) == Success(AllFound(s, words))
    ensures WordsFindAll(s, words) == Success(WordsFind(s, words).value == 1.0)
  {
    CountFoundExtremes(s, words);
    FractionBounds(CountFound(s, words), |words|);
  }

  /** How many of the (stripped) pieces contain every word, computed as
      `sentence_find` does, by `words_find_all` on each piece. */
  function CountSentences(pieces: seq<string>, words: seq<string>): (r: Result<nat, Exception>)
    ensures r.Failure? <==> |pieces| > 0 && |words| == 0
    ensures r.Success? ==> r.value <= |pieces|
  {
    if |pieces| == 0 then Success(0)
    else
      match WordsFindAll(Strip(pieces[0]), words)
      case Failure(e) => Failure(e)
      case Success(b) =>
        var n := CountSentences(pieces[1..], words).value;
        Success((if b then 1 else 0) + n)
  }

  /** `sentence_find(s, words)`: the number of `.`/`!`/`?`-separated pieces
      of `s` that, stripped, contain every word. There is always at least
      one piece, so an empty word list always divides by zero. */
  function SentenceFind(s: string, words: seq<string>): (r: Result<nat, Exception>)
    ensures r.Failure? <==> |words| == 0
    ensures r.Success? ==> r.value <= |Marks(s)| + 1
  {
    CountSentences(SplitSentences(s), words)
  }

  /** The number of pieces in which every word is found, as a plain count. */
  function PiecesWithAll(pieces: seq<string>, words: seq<string>): nat {
    if |pieces| == 0 then 0
    else (if AllFound(Strip(pieces[0]), words) then 1 else 0)
         + PiecesWithAll(pieces[1..], words)
  }

  /** For a non-empty word list, the score `sentence_find` builds from
      `words_find_all` is the plain count of pieces containing every word. */
  lemma {:induction false} CountSentencesIsCount(pieces: seq<string>, words: seq<string>)
    requires |words| > 0
    ensures CountSentences(pieces, words) == Success(PiecesWithAll(pieces, words))
  {
    if |pieces| > 0 {
      WordsFindAllIff(Strip(pieces[0]), words);
      CountSentencesIsCount(pieces[1..], words);
    }
  }

  /** Text with no sentence mark is a single piece: `sentence_find` is then
      one if the stripped text contains every word and zero otherwise. */
  lemma SentenceFindSinglePiece(s: string, words: seq<string>)
    requires NoSentenceMark(s) && |words| > 0
    ensures SentenceFind(s, words) == Success(if AllFound(Strip(s), words) then 1 else 0)
  {
    NoMarksOnePiece(s);
    CountSentencesIsCount([s], words);
    assert [s][1..] == [];
  }

  lemma {:induction false} NoMarksOnePiece(s: string)
    requires NoSentenceMark(s)
    ensures SplitSentences(s) == [s]
  {
    if |s| > 0 {
      NoMarksOnePiece(s[1..]);
      assert s == [s[0]] + s[1..];
    }
  }

  /** `str_find_all(s, s2)`: `s2` is non-empty and its accent-stripped form
      occurs in `s`, ignoring case, anywhere (not as a whole word). */
  function StrFindAll(s: string, s2: string): (r: bool)
    ensures r ==> |s2| > 0
  {
    |s2| > 0 && ContainsIgnoringCase(s, StripAccents(s2))
  }

  /** `str_find_all` as a statement about positions: it holds exactly when
      `s2` is non-empty and some window of `s` equals `strip_accents(s2)`
      up to case. */
  lemma StrFindAllIff(s: string, s2: string)
    ensures StrFindAll(s, s2) <==> |s2| > 0 && OccursIgnoringCase(s, StripAccents(s2))
  {
    ContainsIgnoringCaseIff(s, StripAccents(s2));
  }

  /** `str_find(s, s2)`: `s.find(s2) >= 0`. */
  function StrFind(s: string, s2: string): (r: bool)
    ensures r <==> exists i: nat :: OccursAt(s, s2, i)
  {
    var i := Find(s, s2);
    assert i == -1 ==> forall k: nat :: !OccursAt(s, s2, k);
    i >= 0
  }

  /** The empty string is found in every string; no non-empty string is
      found in the empty string. */
  lemma StrFindEmpty(s: string, s2: string)
    ensures StrFind(s, "")
    ensures |s2| > 0 ==> !StrFind("", s2)
  {
    assert OccursAt(s, "", 0);
  }

  // ---------------------------------------------------------------- closed datatypes

  /** The first element of a rule: no filter (Python `None`), `str.strip`,
      `str_filter`, or `words_filter` with the given `num_chr`. */
  datatype Filter = NoFilter | StripFilter | AccentFilter | WordsFilterOf(minLen: int)

  /** What a filter produces: a phrase (`str`) or a word list. */
  datatype Query = Phrase(text: string) | WordList(words: seq<string>)

  /** The second element of a rule. */
  datatype MatchFn = WordsFindFn | WordsFindAllFn | SentenceFindFn | StrFindAllFn | StrFindFn

  /** `str_f(p_str) if callable(str_f) else p_str`. */
  function ApplyFilter(f: Filter, value: string): (q: Query)
    ensures f.WordsFilterOf? <==> q.WordList?
    ensures f.NoFilter? ==> q == Phrase(value)
  {
    match f
    case NoFilter => Phrase(value)
    case StripFilter => Phrase(Strip(value))
    case AccentFilter => Phrase(StrFilter(value))
    case WordsFilterOf(n) => WordList(WordsFilter(value, n))
  }

  /** Iterating a Python `str` yields its characters as one-character strings. */
  function Chars(s: string): (r: seq<string>)
    ensures |r| == |s|
    ensures forall k :: 0 <= k < |s| ==> r[k] == [s[k]]
  {
    seq(|s|, k requires 0 <= k < |s| => [s[k]])
  }

  /** The sequence a word matcher iterates over. */
  function AsWords(q: Query): seq<string> {
    match q
    case Phrase(t) => Chars(t)
    case WordList(ws) => ws
  }

  function BoolScore(b: bool): real {
    if b then 1.0 else 0.0
  }

  /** `str_p(text, p_str_filtered)` as a number (`True` is 1, `False` is 0). */
  function Match(m: MatchFn, text: string, q: Query): (r: Result<real, Exception>)
    ensures r.Success? ==> 0.0 <= r.value
    ensures r.Success? && !m.SentenceFindFn? ==> r.value <= 1.0
    ensures r.Success? && m.SentenceFindFn? ==> r.value <= (|Marks(text)| + 1) as real
  {
    match m
    case WordsFindFn => WordsFind(text, AsWords(q))
    case WordsFindAllFn =>
      var b :- WordsFindAll(text, AsWords(q));
      Success(BoolScore(b))
    case SentenceFindFn =>
      var n :- SentenceFind(text, AsWords(q));
      Success(n as real)
    case StrFindAllFn =>
      (match q
       case Phrase(p) => Success(BoolScore(StrFindAll(text, p)))
       case WordList(ws) => if |ws| == 0 then Success(0.0) else Failure(TypeError))
    case StrFindFn =>
      (match q
       case Phrase(p) => Success(BoolScore(StrFind(text, p)))
       case WordList(_) => Failure(TypeError))
  }

  /** When a match raises: a word matcher on an empty word list (or empty
      phrase) divides by zero; `str_find` on a word list, and `str_find_all`
      on a non-empty one, are type errors. Nothing else raises. */
  lemma MatchFailsIff(m: MatchFn, text: string, q: Query)
    ensures Match(m, text, q).Failure? <==>
      if m.WordsFindFn? || m.WordsFindAllFn? || m.SentenceFindFn? then |AsWords(q)| == 0
      else if m.StrFindAllFn? then q.WordList? && |q.words| > 0
      else q.WordList?
    ensures Match(m, text, q).Failure? ==>
      Match(m, text, q).error == (if m.StrFindAllFn? || m.StrFindFn? then TypeError else ZeroDivisionError)
  {
  }
}

=== FILE: ranking.dfy ===
/** `UrlFinder`: its configuration and the ranking `UrlFinder.get` performs.

    The search engines, the page download and the HTML content functions are
    parameters: `search` gives what an engine's `get_results` returns or
    raises for a query, `fetch` gives what downloading a link produced, and
    `extract` gives what a content function (`html_title`, `body_text`, ...)
    returns for a page. `extract` is total: the exceptions `meta_description`
    and `body` can raise are not modelled. Weights are `real`; floating-point rounding is not
    modelled. */
module Ranking {
  import opened Wrappers
  import opened Errors
  import opened Text
  import opened Engines
  import opened Matching
  import opened Urls

  // ---------------------------------------------------------------- configuration

  /** The content function of a rule. `RawHtml` stands for the `None` key of
      the content cache, which holds the page source itself. */
  datatype Selector = RawHtml | HtmlTitle | MetaDescription | H1Text | BodyText | Body

  /** One validation rule: `(filter, matcher, weight, content function)`. */
  datatype Rule = Rule(filter: Filter, matcher: MatchFn, weight: real, content: Selector)

  /** The `proc` dictionary: field names with their rules, in insertion order. */
  type RuleTable = seq<(string, seq<Rule>)>

  /** A row of input data: field name to value. A field whose value is
      `None` is absent from the map. */
  type Params = map<string, string>

  datatype Finder = Finder(
    engines: seq<Engine>,
    rules: Option<RuleTable>,
    homeWeight: real,
    skipSocial: bool,
    homeOnly: bool,
    threshold: real)

  /** The defaults of `UrlFinder.__init__`. */
  const DEFAULT_HOME_WEIGHT: real := 1.0
  const DEFAULT_SKIP_SOCIAL: bool := true
  const DEFAULT_HOME_ONLY: bool := false
  const DEFAULT_THRESHOLD: real := 0.3

  // ---------------------------------------------------------------- construction

  /** The arguments of `UrlFinder(engines, proc, home_weight, skip_social,
      home_only, threshold)`. */
  datatype FinderArgs = FinderArgs(
    engines: seq<Engine>,
    proc: Option<RuleTable>,
    homeWeight: real,
    skipSocial: bool,
    homeOnly: bool,
    threshold: real)

  /** The parameters of `UrlFinder.__init__`. Python makes exactly these the
      method's local names; every other name it reads is looked up among the
      module's names and then among the builtins. */
  const INIT_PARAMETERS: set<string> :=
    {"self", "engines", "proc", "home_weight", "skip_social", "home_only", "threshold"}

  /** The names bound at the top level of search_engines.py: its imports,
      its classes and the attributes every module has. */
  const MODULE_NAMES: set<string> := {
    "BeautifulSoup", "urlsplit", "unquote", "unescape", "choice",
    "requests", "json", "re", "unicodedata", "urllib3",
    "SearchEngine", "GoogleCustomSearch", "GoogleSearch", "UrlFinder",
    "__name__", "__doc__", "__file__", "__builtins__", "__cached__", "__loader__", "__package__", "__spec__"}

  /** Builtins: exception and warning classes from `ArithmeticError` to `GeneratorExit`. */
  const BUILTIN_EXCEPTIONS_1: set<string> := {
    "ArithmeticError", "AssertionError", "AttributeError", "BaseException", "BlockingIOError",
    "BrokenPipeError", "BufferError", "BytesWarning", "ChildProcessError",
    "ConnectionAbortedError", "ConnectionError", "ConnectionRefusedError", "ConnectionResetError",
    "DeprecationWarning", "EOFError", "EnvironmentError", "Exception", "FileExistsError",
    "FileNotFoundError", "FloatingPointError", "FutureWarning", "GeneratorExit"}

  /** Builtins: exception and warning classes from `IOError` to `ReferenceError`. */
  const BUILTIN_EXCEPTIONS_2: set<string> := {
    "IOError", "ImportError", "ImportWarning", "IndentationError", "IndexError",
    "InterruptedError", "IsADirectoryError", "KeyError", "KeyboardInterrupt", "LookupError",
    "MemoryError", "ModuleNotFoundError", "NameError", "NotADirectoryError", "NotImplementedError",
    "OSError", "OverflowError", "PendingDeprecationWarning", "PermissionError",
    "ProcessLookupError", "RecursionError", "ReferenceError"}

  /** Builtins: exception and warning classes from `ResourceWarning` to `ZeroDivisionError`. */
  const BUILTIN_EXCEPTIONS_3: set<string> := {
    "ResourceWarning", "RuntimeError", "RuntimeWarning", "StopAsyncIteration", "StopIteration",
    "SyntaxError", "SyntaxWarning", "SystemError", "SystemExit", "TabError", "TimeoutError",
    "TypeError", "UnboundLocalError", "UnicodeDecodeError", "UnicodeEncodeError", "UnicodeError",
    "UnicodeTranslateError", "UnicodeWarning", "UserWarning", "ValueError", "Warning",
    "ZeroDivisionError"}

  /** Builtins: the constants and the module attributes. */
  const BUILTIN_CONSTANTS: set<string> := {
    "False", "True", "None", "Ellipsis", "NotImplemented", "__build_class__", "__debug__",
    "__doc__", "__import__", "__loader__", "__name__", "__package__", "__spec__"}

  /** Builtins: functions and types from `abs` to `exit`. */
  const BUILTIN_FUNCTIONS_1: set<string> := {
    "abs", "all", "any", "ascii", "bin", "bool", "breakpoint", "bytearray", "bytes", "callable",
    "chr", "classmethod", "compile", "complex", "copyright", "credits", "delattr", "dict", "dir",
    "divmod", "enumerate", "eval", "exec", "exit"}

  /** Builtins: functions and types from `filter` to `ord`. */
  const BUILTIN_FUNCTIONS_2: set<string> := {
    "filter", "float", "format", "frozenset", "getattr", "globals", "hasattr", "hash", "help",
    "hex", "id", "input", "int", "isinstance", "issubclass", "iter", "len", "license", "list",
    "locals", "map", "max", "memoryview", "min", "next", "object", "oct", "open", "ord"}

  /** Builtins: functions and types from `pow` to `zip`. */
  const BUILTIN_FUNCTIONS_3: set<string> := {
    "pow", "print", "property", "quit", "range", "repr", "reversed", "round", "set", "setattr",
    "slice", "sorted", "staticmethod", "str", "sum", "super", "tuple", "type", "vars", "zip"}

  /** The names of Python 3.9's `builtins` module, with the ones `site`
      adds (`copyright`, `credits`, `exit`, `help`, `license`, `quit`). */
  const BUILTIN_NAMES: set<string> :=
    BUILTIN_EXCEPTIONS_1 + BUILTIN_EXCEPTIONS_2 + BUILTIN_EXCEPTIONS_3 + BUILTIN_CONSTANTS
    + BUILTIN_FUNCTIONS_1 + BUILTIN_FUNCTIONS_2 + BUILTIN_FUNCTIONS_3

  /** The names `__init__` can read without raising `NameError`. */
  const INIT_SCOPE: set<string> := INIT_PARAMETERS + MODULE_NAMES + BUILTIN_NAMES

  /** One statement `self.<attr> = <expression>` of `__init__`'s body: the
      names the statement reads, in evaluation order, and the parameter
      whose value it stores (`None` when it stores a newly computed object). */
  datatype Assignment = Assignment(attr: string, names: seq<string>, stores: Option<string>)

  /** search_engines.py:400-407, as written. `list(engines)` copies the
      engine list; the social pattern is compiled from class constants. */
  const INIT_BODY: seq<Assignment> := [
    Assignment("_engines", ["list", "engines", "self"], Some("engines")),
    Assignment("_processors", ["procs", "self"], Some("procs")),
    Assignment("_exclude_re", ["re", "self", "self"], None),
    Assignment("_skip_social", ["skip_social", "self"], Some("skip_social")),
    Assignment("_home_weight", ["home_weight", "self"], Some("home_weight")),
    Assignment("_home_only", ["home_only", "self"], Some("home_only")),
    Assignment("_threshold", ["threshold", "self"], Some("threshold"))]

  /** The same body with the rule table read from the parameter `proc`. */
  const INIT_BODY_CORRECTED: seq<Assignment> :=
    INIT_BODY[1 := Assignment("_processors", ["proc", "self"], Some("proc"))]

  /** An attribute value: an argument of the call, or an object the model
      does not look into (a module-level object, or the compiled pattern). */
  datatype Value =
    | EnginesValue(engines: seq<Engine>)
    | RulesValue(rules: Option<RuleTable>)
    | RealValue(number: real)
    | BoolValue(flag: bool)
    | OtherValue

  /** The value a parameter holds for `args`. */
  function ArgumentValue(name: string, args: FinderArgs): Value {
    if name == "engines" then EnginesValue(args.engines)
    else if name == "proc" then RulesValue(args.proc)
    else if name == "home_weight" then RealValue(args.homeWeight)
    else if name == "skip_social" then BoolValue(args.skipSocial)
    else if name == "home_only" then BoolValue(args.homeOnly)
    else if name == "threshold" then RealValue(args.threshold)
    else OtherValue
  }

  /** Every name the body reads, statement by statement. */
  function ReadsOf(body: seq<Assignment>): seq<string> {
    if |body| == 0 then [] else body[0].names + ReadsOf(body[1..])
  }

  /** The position of the first name of `names` outside `scope`. */
  function FirstUnbound(names: seq<string>, scope: set<string>): (r: Option<nat>)
    ensures r.None? <==> forall k :: 0 <= k < |names| ==> names[k] in scope
    ensures r.Some? ==> && r.value < |names| && names[r.value] !in scope
                        && forall k :: 0 <= k < r.value ==> names[k] in scope
  {
    if |names| == 0 then None
    else if names[0] !in scope then Some(0)
    else match FirstUnbound(names[1..], scope)
      case None => None
      case Some(k) => Some(k + 1)
  }

  /** A position holding an unbound name after only bound ones is the one
      `FirstUnbound` finds. */
  lemma FirstUnboundAt(names: seq<string>, scope: set<string>, k: nat)
    requires k < |names| && names[k] !in scope
    requires forall m :: 0 <= m < k ==> names[m] in scope
    ensures FirstUnbound(names, scope) == Some(k)
  {
  }

  /** The attributes the statements set, in order, on top of `attrs`. */
  function StoreAll(body: seq<Assignment>, args: FinderArgs, attrs: map<string, Value>): map<string, Value> {
    if |body| == 0 then attrs
    else
      var v := if body[0].stores.Some? then ArgumentValue(body[0].stores.value, args) else OtherValue;
      StoreAll(body[1..], args, attrs[body[0].attr := v])
  }

  /** Running a constructor body with the names `scope` binds: the first
      name outside it raises `NameError`; otherwise the instance gets every
      attribute the body sets. */
  function RunInit(body: seq<Assignment>, scope: set<string>, args: FinderArgs): (r: Result<map<string, Value>, Exception>)
    ensures r.Failure? <==> exists k :: 0 <= k < |ReadsOf(body)| && ReadsOf(body)[k] !in scope
    ensures r.Failure? ==> exists k :: && 0 <= k < |ReadsOf(body)| && r.error == NameError(ReadsOf(body)[k])
                                       && ReadsOf(body)[k] !in scope
                                       && forall m :: 0 <= m < k ==> ReadsOf(body)[m] in scope
  {
    match FirstUnbound(ReadsOf(body), scope)
    case Some(k) => Failure(NameError(ReadsOf(body)[k]))
    case None => Success(StoreAll(body, args, map[]))
  }

  /** The finder an instance with these attributes behaves as, when every
      attribute `get` reads holds a value of the expected kind. */
  function FinderOf(attrs: map<string, Value>): Option<Finder> {
    if && "_engines" in attrs && attrs["_engines"].EnginesValue?
       && "_processors" in attrs && attrs["_processors"].RulesValue?
       && "_home_weight" in attrs && attrs["_home_weight"].RealValue?
       && "_skip_social" in attrs && attrs["_skip_social"].BoolValue?
       && "_home_only" in attrs && attrs["_home_only"].BoolValue?
       && "_threshold" in attrs && attrs["_threshold"].RealValue?
    then Some(Finder(attrs["_engines"].engines, attrs["_processors"].rules, attrs["_home_weight"].number,
                     attrs["_skip_social"].flag, attrs["_home_only"].flag, attrs["_threshold"].number))
    else None
  }

  lemma ProcsNotException1()
    ensures "procs" !in BUILTIN_EXCEPTIONS_1
  {
  }

  lemma ProcsNotException2()
    ensures "procs" !in BUILTIN_EXCEPTIONS_2
  {
  }

  lemma ProcsNotException3()
    ensures "procs" !in BUILTIN_EXCEPTIONS_3
  {
  }

  lemma ProcsNotFunction1()
    ensures "procs" !in BUILTIN_FUNCTIONS_1
  {
  }

  lemma ProcsNotFunction2()
    ensures "procs" !in BUILTIN_FUNCTIONS_2
  {
  }

  lemma ProcsNotFunction3()
    ensures "procs" !in BUILTIN_FUNCTIONS_3
  {
  }

  lemma ProcsNotAModuleName()
    ensures "procs" !in INIT_PARAMETERS + MODULE_NAMES + BUILTIN_CONSTANTS
  {
  }

  /** `procs` is neither a parameter of `__init__`, nor a name of the
      module, nor a builtin. */
  lemma ProcsUnbound()
    ensures "procs" !in INIT_SCOPE
  {
    ProcsNotException1();
    ProcsNotException2();
    ProcsNotException3();
    ProcsNotFunction1();
    ProcsNotFunction2();
    ProcsNotFunction3();
    ProcsNotAModuleName();
  }

  /** The body as written reads `list`, `engines`, `self` and then `procs`. */
  lemma InitReadsProcsFourth()
    ensures var names := ReadsOf(INIT_BODY);
            |names| > 3 && names[0] == "list" && names[1] == "engines" && names[2] == "self" && names[3] == "procs"
  {
    assert ReadsOf(INIT_BODY[1..]) == ["procs", "self"] + ReadsOf(INIT_BODY[2..]);
  }

  /** The names the first statement reads are bound. */
  lemma FirstStatementBound()
    ensures "list" in INIT_SCOPE && "engines" in INIT_SCOPE && "self" in INIT_SCOPE
  {
    assert "list" in BUILTIN_FUNCTIONS_2;
  }

  /** As written, the body reads `procs`, bound nowhere, after three bound
      names. */
  lemma ProcsReadAfterBoundNames()
    ensures var names := ReadsOf(INIT_BODY);
            && |names| > 3 && names[3] == "procs" && names[3] !in INIT_SCOPE
            && forall m :: 0 <= m < 3 ==> names[m] in INIT_SCOPE
  {
    InitReadsProcsFourth();
    ProcsUnbound();
    FirstStatementBound();
  }

  /** `UrlFinder.__init__` as written: whatever the arguments, the body
      reads `procs`, which is bound nowhere, after three names that are
      bound, so the construction raises `NameError`. */
  function NewFinderAsWritten(args: FinderArgs): (r: Result<map<string, Value>, Exception>)
    ensures r == Failure(NameError("procs"))
  {
    ProcsReadAfterBoundNames();
    FirstUnboundAt(ReadsOf(INIT_BODY), INIT_SCOPE, 3);
    RunInit(INIT_BODY, INIT_SCOPE, args)
  }

  /** `UrlFinder.__init__` as evidently intended: the rule table stored is
      the one passed in. */
  function NewFinder(engines: seq<Engine>, proc: Option<RuleTable>, homeWeight: real,
                     skipSocial: bool, homeOnly: bool, threshold: real): (f: Finder)
    ensures f.rules == proc && f.engines == engines
  {
    Finder(engines, proc, homeWeight, skipSocial, homeOnly, threshold)
  }

  /** Every name a statement reads is in `scope`. */
  predicate StatementBound(a: Assignment, scope: set<string>) {
    forall k :: 0 <= k < |a.names| ==> a.names[k] in scope
  }

  /** A body whose statements each read only bound names reads only bound
      names. */
  lemma {:induction false} ReadsOfBound(body: seq<Assignment>, scope: set<string>)
    requires forall i :: 0 <= i < |body| ==> StatementBound(body[i], scope)
    ensures forall k :: 0 <= k < |ReadsOf(body)| ==> ReadsOf(body)[k] in scope
  {
    if |body| > 0 {
      ReadsOfBound(body[1..], scope);
      var rest := ReadsOf(body[1..]);
      assert ReadsOf(body) == body[0].names + rest;
      forall k | 0 <= k < |ReadsOf(body)|
        ensures ReadsOf(body)[k] in scope
      {
        if k >= |body[0].names| {
          assert ReadsOf(body)[k] == rest[k - |body[0].names|];
        }
      }
    }
  }

  /** The names `__init__` reads once corrected: its parameters, the
      builtin `list` and the module `re`. */
  const CORRECTED_INIT_NAMES: set<string> := INIT_PARAMETERS + {"list", "re"}

  lemma CorrectedInitReadsOnly()
    ensures forall k :: 0 <= k < |ReadsOf(INIT_BODY_CORRECTED)| ==> ReadsOf(INIT_BODY_CORRECTED)[k] in CORRECTED_INIT_NAMES
  {
    var body := INIT_BODY_CORRECTED;
    assert forall i :: 0 <= i < |body| ==> StatementBound(body[i], CORRECTED_INIT_NAMES);
    ReadsOfBound(body, CORRECTED_INIT_NAMES);
  }

  lemma CorrectedInitNamesInScope()
    ensures CORRECTED_INIT_NAMES <= INIT_SCOPE
  {
    FirstStatementBound();
    assert "re" in MODULE_NAMES;
  }

  /** The names the corrected body reads are all bound. */
  lemma CorrectedInitNamesBound()
    ensures forall k :: 0 <= k < |ReadsOf(INIT_BODY_CORRECTED)| ==> ReadsOf(INIT_BODY_CORRECTED)[k] in INIT_SCOPE
  {
    CorrectedInitReadsOnly();
    CorrectedInitNamesInScope();
  }

  /** The attributes the corrected body sets hold the arguments. */
  lemma CorrectedInitAttributes(args: FinderArgs)
    ensures var attrs := StoreAll(INIT_BODY_CORRECTED, args, map[]);
            && "_engines" in attrs && attrs["_engines"] == EnginesValue(args.engines)
            && "_processors" in attrs && attrs["_processors"] == RulesValue(args.proc)
            && "_skip_social" in attrs && attrs["_skip_social"] == BoolValue(args.skipSocial)
            && "_home_weight" in attrs && attrs["_home_weight"] == RealValue(args.homeWeight)
            && "_home_only" in attrs && attrs["_home_only"] == BoolValue(args.homeOnly)
            && "_threshold" in attrs && attrs["_threshold"] == RealValue(args.threshold)
  {
    var body := INIT_BODY_CORRECTED;
    var a1 := map["_engines" := EnginesValue(args.engines)];
    var a2 := a1["_processors" := RulesValue(args.proc)];
    var a3 := a2["_exclude_re" := OtherValue];
    var a4 := a3["_skip_social" := BoolValue(args.skipSocial)];
    var a5 := a4["_home_weight" := RealValue(args.homeWeight)];
    var a6 := a5["_home_only" := BoolValue(args.homeOnly)];
    var a7 := a6["_threshold" := RealValue(args.threshold)];
    assert StoreAll(body[6..], args, a6) == a7;
    assert StoreAll(body[4..], args, a4) == StoreAll(body[6..], args, a6);
    assert StoreAll(body[2..], args, a2) == StoreAll(body[4..], args, a4);
    assert StoreAll(body, args, map[]) == StoreAll(body[2..], args, a2);
  }

  /** With `procs` read as `proc`, every name the body reads is bound, and
      the instance it builds behaves as `NewFinder` of the same arguments. */
  lemma CorrectedInitIsNewFinder(args: FinderArgs)
    ensures RunInit(INIT_BODY_CORRECTED, INIT_SCOPE, args).Success?
    ensures FinderOf(RunInit(INIT_BODY_CORRECTED, INIT_SCOPE, args).value)
            == Some(NewFinder(args.engines, args.proc, args.homeWeight, args.skipSocial, args.homeOnly, args.threshold))
  {
    CorrectedInitNamesBound();
    CorrectedInitAttributes(args);
  }

  // ---------------------------------------------------------------- page content

  /** What downloading a link produced. Only `ConnectionError` is caught
      around the download; any other request failure escapes `get`. */
  datatype FetchOutcome = Fetched(html: string) | ConnectionFailure | RequestFailure

  /** The text a rule searches: the page source for `RawHtml`, otherwise the
      content function's result with accents stripped. */
  function View(html: string, sel: Selector, extract: (string, Selector) -> string): (t: string)
    ensures sel != RawHtml ==> Unmarked(t)
  {
    if sel == RawHtml then html else StripAccents(extract(html, sel))
  }

  /** The page source is cached, and every cached text is the text `View`
      gives for its key. */
  predicate CacheAgrees(cache: map<Selector, string>, html: string, extract: (string, Selector) -> string) {
    && RawHtml in cache
    && forall sel :: sel in cache ==> cache[sel] == View(html, sel, extract)
  }

  /** The cache `get` starts a page with: `{None: html}`. */
  function InitialCache(html: string): map<Selector, string> {
    map[RawHtml := html]
  }

  /** `content.get(content_p)`, computing and storing the text on a miss. */
  function Lookup(cache: map<Selector, string>, sel: Selector, html: string,
                  extract: (string, Selector) -> string): (r: (string, map<Selector, string>))
    requires CacheAgrees(cache, html, extract)
    ensures r.0 == View(html, sel, extract)
    ensures CacheAgrees(r.1, html, extract) && sel in r.1
    ensures forall s :: s in cache ==> s in r.1
  {
    if sel in cache then (cache[sel], cache)
    else
      var text := StripAccents(extract(html, sel));
      (text, cache[sel := text])
  }

  // ---------------------------------------------------------------- scoring

  /** How a rule scores a field value against a text. The folds below take
      it as a parameter; `get` uses `RuleScore`. */
  type Scorer = (Rule, string, string) -> Result<real, Exception>

  /** `str_p(text, str_f(p_str)) * weight` for one rule and one text: it
      raises exactly when the matcher raises, and a rule of non-negative
      weight never scores below zero. */
  function RuleScore(rule: Rule, value: string, text: string): (r: Result<real, Exception>)
    ensures r.Failure? <==> Match(rule.matcher, text, ApplyFilter(rule.filter, value)).Failure?
    ensures r.Success? && rule.weight >= 0.0 ==> r.value >= 0.0
  {
    var m := Match(rule.matcher, text, ApplyFilter(rule.filter, value));
    if m.Failure? then Failure(m.error)
    else
      Scaled(m.value, rule.weight)
  }

  /** `m * weight` for a non-negative match value `m`. */
  function Scaled(m: real, weight: real): (r: Result<real, Exception>)
    requires m >= 0.0
    ensures r.Success? && (weight >= 0.0 ==> r.value >= 0.0)
  {
    Success(m * weight)
  }

  /** Reference sum for one field: the rules' scores against freshly
      computed texts, added up; the first failing rule's error otherwise. */
  function RulesSum(score: Scorer, rules: seq<Rule>, value: string, html: string,
                    extract: (string, Selector) -> string): Result<real, Exception>
  {
    if |rules| == 0 then Success(0.0)
    else
      var m :- score(rules[0], value, View(html, rules[0].content, extract));
      var rest :- RulesSum(score, rules[1..], value, html, extract);
      Success(m + rest)
  }

  /** Reference sum for a table: every field present in `params`
      contributes its rules' sum; absent fields contribute nothing. */
  function TableSum(score: Scorer, table: RuleTable, params: Params, html: string,
                    extract: (string, Selector) -> string): Result<real, Exception>
  {
    if |table| == 0 then Success(0.0)
    else
      var head :- if table[0].0 in params then RulesSum(score, table[0].1, params[table[0].0], html, extract) else Success(0.0);
      var rest :- TableSum(score, table[1..], params, html, extract);
      Success(head + rest)
  }

  /** The inner loop of `get` (search_engines.py:492-508): add each rule's
      score to `acc`, reading texts through the cache. */
  function ScoreRules(score: Scorer, rules: seq<Rule>, value: string, html: string, extract: (string, Selector) -> string,
                      cache: map<Selector, string>, acc: real): (r: Result<(real, map<Selector, string>), Exception>)
    requires CacheAgrees(cache, html, extract)
    ensures r.Success? ==> CacheAgrees(r.value.1, html, extract)
    decreases |rules|
  {
    if |rules| == 0 then Success((acc, cache))
    else
      var (text, cache') := Lookup(cache, rules[0].content, html, extract);
      var m :- score(rules[0], value, text);
      ScoreRules(score, rules[1..], value, html, extract, cache', acc + m)
  }

  /** The outer loop of `get` (search_engines.py:480-486): each field of the
      table whose value is present is scored with its rules. */
  function ScoreTable(score: Scorer, table: RuleTable, params: Params, html: string, extract: (string, Selector) -> string,
                      cache: map<Selector, string>, acc: real): (r: Result<real, Exception>)
    requires CacheAgrees(cache, html, extract)
    decreases |table|
  {
    if |table| == 0 then Success(acc)
    else if table[0].0 in params then
      var (acc', cache') :- ScoreRules(score, table[0].1, params[table[0].0], html, extract, cache, acc);
      ScoreTable(score, table[1..], params, html, extract, cache', acc')
    else
      ScoreTable(score, table[1..], params, html, extract, cache, acc)
  }

  /** The cache changes nothing: scoring a field through it is `acc` plus
      the reference sum, and fails exactly when, and as, the reference
      fails. */
  lemma {:induction false} ScoreRulesIsSum(score: Scorer, rules: seq<Rule>, value: string, html: string,
                                           extract: (string, Selector) -> string, cache: map<Selector, string>, acc: real)
    requires CacheAgrees(cache, html, extract)
    ensures var r := ScoreRules(score, rules, value, html, extract, cache, acc);
            var s := RulesSum(score, rules, value, html, extract);
            && (r.Success? <==> s.Success?)
            && (r.Success? ==> r.value.0 == acc + s.value)
            && (r.Failure? ==> r.error == s.error)
    decreases |rules|
  {
    if |rules| > 0 {
      var m := score(rules[0], value, View(html, rules[0].content, extract));
      if m.Success? {
        var cache' := Lookup(cache, rules[0].content, html, extract).1;
        ScoreRulesIsSum(score, rules[1..], value, html, extract, cache', acc + m.value);
      }
    }
  }

  /** The same for the whole table. */
  lemma {:induction false} ScoreTableIsSum(score: Scorer, table: RuleTable, params: Params, html: string,
                                           extract: (string, Selector) -> string, cache: map<Selector, string>, acc: real)
    requires CacheAgrees(cache, html, extract)
    ensures var r := ScoreTable(score, table, params, html, extract, cache, acc);
            var s := TableSum(score, table, params, html, extract);
            && (r.Success? <==> s.Success?)
            && (r.Success? ==> r.value == acc + s.value)
            && (r.Failure? ==> r.error == s.error)
    decreases |table|
  {
    if |table| > 0 {
      if table[0].0 in params {
        var value := params[table[0].0];
        ScoreRulesIsSum(score, table[0].1, value, html, extract, cache, acc);
        var r := ScoreRules(score, table[0].1, value, html, extract, cache, acc);
        if r.Success? {
          ScoreTableIsSum(score, table[1..], params, html, extract, r.value.1, r.value.0);
        }
      } else {
        ScoreTableIsSum(score, table[1..], params, html, extract, cache, acc);
      }
    }
  }

  // ---------------------------------------------------------------- one candidate

  /** The pre-check of search_engines.py:456-458: a blocked extension, a
      social link when those are skipped, or a non-home link when only home
      pages are wanted. */
  predicate Excluded(f: Finder, link: string, home: bool) {
    || HasExcludedExtension(link)
    || (f.skipSocial && IsSocialLink(link))
    || (f.homeOnly && !home)
  }

  /** `int(is_home) * home_weight`. */
  function HomeTerm(f: Finder, home: bool): real {
    if home then f.homeWeight else 0.0
  }

  /** The weight `get` appends for one candidate (search_engines.py:452-515).
      Splitting the link can raise `ValueError`; a match can raise
      `ZeroDivisionError` or `TypeError`; a failed download other than a
      connection error raises. None of these is caught. */
  function CandidateWeight(f: Finder, rec: Record, params: Option<Params>,
                           fetch: string -> FetchOutcome, extract: (string, Selector) -> string): (r: Result<real, Exception>)
  {
    var home :- IsHome(rec.link);
    if Excluded(f, rec.link, home) then Success(-1.0)
    else
      var w := HomeTerm(f, home);
      if f.rules.None? || params.None? then Success(w)
      else
        match fetch(rec.link)
        case ConnectionFailure => Success(-1.0)
        case RequestFailure => Failure(RequestError)
        case Fetched(html) => ScoreTable(RuleScore, f.rules.value, params.value, html, extract, InitialCache(html), w)
  }

  /** An excluded candidate weighs exactly -1, whatever the download would
      have given: the page is never fetched. */
  lemma ExcludedIsMinusOne(f: Finder, rec: Record, params: Option<Params>,
                           fetch: string -> FetchOutcome, extract: (string, Selector) -> string)
    requires IsHome(rec.link).Success?
    requires Excluded(f, rec.link, IsHome(rec.link).value)
    ensures CandidateWeight(f, rec, params, fetch, extract) == Success(-1.0)
  {
  }

  /** With no rule table or no row data, a kept candidate weighs just its
      home term, again without a download. */
  lemma NoRulesHomeTerm(f: Finder, rec: Record, params: Option<Params>,
                        fetch: string -> FetchOutcome, extract: (string, Selector) -> string)
    requires IsHome(rec.link).Success?
    requires !Excluded(f, rec.link, IsHome(rec.link).value)
    requires f.rules.None? || params.None?
    ensures CandidateWeight(f, rec, params, fetch, extract) == Success(HomeTerm(f, IsHome(rec.link).value))
  {
  }

  /** What a download decides for a kept candidate with rules and data: a
      connection error gives -1, any other request error escapes, and a page
      gives the home term plus the table's reference sum, failing exactly
      when the sum fails and with its error. */
  lemma FetchedWeight(f: Finder, rec: Record, params: Option<Params>,
                      fetch: string -> FetchOutcome, extract: (string, Selector) -> string)
    requires IsHome(rec.link).Success?
    requires !Excluded(f, rec.link, IsHome(rec.link).value)
    requires f.rules.Some? && params.Some?
    ensures fetch(rec.link).ConnectionFailure? ==> CandidateWeight(f, rec, params, fetch, extract) == Success(-1.0)
    ensures fetch(rec.link).RequestFailure? ==> CandidateWeight(f, rec, params, fetch, extract) == Failure(RequestError)
    ensures fetch(rec.link).Fetched? ==>
              var w := CandidateWeight(f, rec, params, fetch, extract);
              var s := TableSum(RuleScore, f.rules.value, params.value, fetch(rec.link).html, extract);
              && (w.Success? <==> s.Success?)
              && (w.Success? ==> w.value == HomeTerm(f, IsHome(rec.link).value) + s.value)
              && (w.Failure? ==> w.error == s.error)
  {
    var home := IsHome(rec.link).value;
    if fetch(rec.link).Fetched? {
      var html := fetch(rec.link).html;
      assert CandidateWeight(f, rec, params, fetch, extract)
          == ScoreTable(RuleScore, f.rules.value, params.value, html, extract, InitialCache(html), HomeTerm(f, home));
      ScoreTableIsSum(RuleScore, f.rules.value, params.value, html, extract, InitialCache(html), HomeTerm(f, home));
    }
  }

  /** A splitting error escapes before anything else is looked at. */
  lemma SplitErrorEscapes(f: Finder, rec: Record, params: Option<Params>,
                          fetch: string -> FetchOutcome, extract: (string, Selector) -> string)
    requires UrlSplit(rec.link).Failure?
    ensures CandidateWeight(f, rec, params, fetch, extract) == Failure(ValueError)
  {
  }

  // ---------------------------------------------------------------- sign of the weights

  /** Every rule of the table has a non-negative weight. */
  predicate NonNegativeRules(table: RuleTable) {
    forall i, j :: 0 <= i < |table| && 0 <= j < |table[i].1| ==> table[i].1[j].weight >= 0.0
  }

  /** A scorer that never gives a rule of non-negative weight a negative
      score. */
  ghost predicate SignRespecting(score: Scorer) {
    forall rule: Rule, value: string, text: string :: rule.weight >= 0.0 && score(rule, value, text).Success? ==> score(rule, value, text).value >= 0.0
  }

  lemma RuleScoreRespectsSign()
    ensures SignRespecting(RuleScore)
  {
  }

  lemma {:induction false} RulesSumNonNegative(score: Scorer, rules: seq<Rule>, value: string, html: string,
                                               extract: (string, Selector) -> string)
    requires SignRespecting(score)
    requires forall j :: 0 <= j < |rules| ==> rules[j].weight >= 0.0
    ensures RulesSum(score, rules, value, html, extract).Success? ==> RulesSum(score, rules, value, html, extract).value >= 0.0
  {
    if |rules| > 0 {
      RulesSumNonNegative(score, rules[1..], value, html, extract);
    }
  }

  lemma {:induction false} TableSumNonNegative(score: Scorer, table: RuleTable, params: Params, html: string,
                                               extract: (string, Selector) -> string)
    requires SignRespecting(score)
    requires NonNegativeRules(table)
    ensures TableSum(score, table, params, html, extract).Success? ==> TableSum(score, table, params, html, extract).value >= 0.0
  {
    if |table| > 0 {
      if table[0].0 in params {
        RulesSumNonNegative(score, table[0].1, params[table[0].0], html, extract);
      }
      assert NonNegativeRules(table[1..]) by {
        forall i, j | 0 <= i < |table[1..]| && 0 <= j < |table[1..][i].1|
          ensures table[1..][i].1[j].weight >= 0.0
        {
          assert table[1..][i] == table[i + 1];
        }
      }
      TableSumNonNegative(score, table[1..], params, html, extract);
    }
  }

  /** With non-negative rule weights and home weight, a computed weight is
      either the -1 sentinel or non-negative. */
  lemma WeightSign(f: Finder, rec: Record, params: Option<Params>,
                   fetch: string -> FetchOutcome, extract: (string, Selector) -> string)
    requires f.homeWeight >= 0.0
    requires f.rules.Some? ==> NonNegativeRules(f.rules.value)
    ensures var w := CandidateWeight(f, rec, params, fetch, extract);
            w.Success? ==> w.value == -1.0 || w.value >= 0.0
  {
    var home := IsHome(rec.link);
    if home.Success? {
      if Excluded(f, rec.link, home.value) {
        ExcludedIsMinusOne(f, rec, params, fetch, extract);
      } else if f.rules.None? || params.None? {
        NoRulesHomeTerm(f, rec, params, fetch, extract);
      } else {
        FetchedSign(f, rec, params, fetch, extract);
      }
    }
  }

  /** The sign of a kept candidate's weight when there are rules and data. */
  lemma FetchedSign(f: Finder, rec: Record, params: Option<Params>,
                    fetch: string -> FetchOutcome, extract: (string, Selector) -> string)
    requires IsHome(rec.link).Success?
    requires !Excluded(f, rec.link, IsHome(rec.link).value)
    requires f.rules.Some? && params.Some?
    requires f.homeWeight >= 0.0
    requires NonNegativeRules(f.rules.value)
    ensures var w := CandidateWeight(f, rec, params, fetch, extract);
            w.Success? ==> w.value == -1.0 || w.value >= 0.0
  {
    FetchedWeight(f, rec, params, fetch, extract);
    if fetch(rec.link).Fetched? {
      RuleScoreRespectsSign();
      TableSumNonNegative(RuleScore, f.rules.value, params.value, fetch(rec.link).html, extract);
    }
  }

  // ---------------------------------------------------------------- all candidates

  /** The `weights` list (search_engines.py:446-515): one weight per
      candidate, each computed from that candidate alone; the first
      candidate whose weight raises makes the whole computation raise. */
  function Weights(f: Finder, recs: seq<Record>, params: Option<Params>,
                   fetch: string -> FetchOutcome, extract: (string, Selector) -> string): (r: Result<seq<real>, Exception>)
    ensures r.Success? <==> forall i :: 0 <= i < |recs| ==> CandidateWeight(f, recs[i], params, fetch, extract).Success?
    ensures r.Success? ==> (|r.value| == |recs| &&
              forall i :: 0 <= i < |recs| ==> r.value[i] == CandidateWeight(f, recs[i], params, fetch, extract).value)
    ensures r.Failure? ==> exists i :: (0 <= i < |recs| && CandidateWeight(f, recs[i], params, fetch, extract) == Failure(r.error) &&
              forall k :: 0 <= k < i ==> CandidateWeight(f, recs[k], params, fetch, extract).Success?)
  {
    if |recs| == 0 then Success([])
    else
      var w :- CandidateWeight(f, recs[0], params, fetch, extract);
      var rest :- Weights(f, recs[1..], params, fetch, extract);
      assert forall i :: 1 <= i < |recs| ==> recs[i] == recs[1..][i - 1];
      Success([w] + rest)
  }

  /** Scanning from `i` with the best index so far: the first index holding
      the largest weight. */
  function MaxIndexFrom(ws: seq<real>, i: nat, best: nat): (r: nat)
    requires best < i <= |ws|
    requires forall k :: 0 <= k < i ==> ws[k] <= ws[best]
    requires forall k :: 0 <= k < best ==> ws[k] < ws[best]
    ensures r < |ws|
    ensures forall k :: 0 <= k < |ws| ==> ws[k] <= ws[r]
    ensures forall k :: 0 <= k < r ==> ws[k] < ws[r]
    decreases |ws| - i
  {
    if i == |ws| then best
    else if ws[i] > ws[best] then MaxIndexFrom(ws, i + 1, i)
    else MaxIndexFrom(ws, i + 1, best)
  }

  /** `sorted(enumerate(weights), key=weight, reverse=True)[0]`: Python's
      sort is stable also in reverse, so the head is the first index whose
      weight is maximal. */
  function FirstMaxIndex(ws: seq<real>): (r: nat)
    requires |ws| > 0
    ensures r < |ws|
    ensures forall k :: 0 <= k < |ws| ==> ws[k] <= ws[r]
    ensures forall k :: 0 <= k < r ==> ws[k] < ws[r]
  {
    MaxIndexFrom(ws, 1, 0)
  }

  /** Only one index is first among the maximal ones. */
  lemma FirstMaxUnique(ws: seq<real>, i: nat)
    requires i < |ws|
    requires forall k :: 0 <= k < |ws| ==> ws[k] <= ws[i]
    requires forall k :: 0 <= k < i ==> ws[k] < ws[i]
    ensures FirstMaxIndex(ws) == i
  {
    var r := FirstMaxIndex(ws);
    assert ws[r] <= ws[i] && ws[i] <= ws[r];
  }

  /** Some weight reaches the threshold. */
  predicate Reaches(ws: seq<real>, threshold: real) {
    exists k :: 0 <= k < |ws| && ws[k] >= threshold
  }

  /** Index `i` is the first of maximal weight, and its weight reaches the
      threshold. */
  predicate ChosenAt(ws: seq<real>, i: int, threshold: real) {
    && 0 <= i < |ws|
    && ws[i] >= threshold
    && (forall k :: 0 <= k < |ws| ==> ws[k] <= ws[i])
    && (forall k :: 0 <= k < i ==> ws[k] < ws[i])
  }

  /** search_engines.py:518-524: the index chosen, if its weight reaches the
      threshold. Some weight reaches the threshold exactly when an index is
      chosen, and the index chosen is the first of maximal weight. */
  function Select(ws: seq<real>, threshold: real): (r: Option<nat>)
    ensures r.Some? <==> Reaches(ws, threshold)
    ensures r.Some? ==> ChosenAt(ws, r.value, threshold)
  {
    if |ws| == 0 then None
    else
      var idx := FirstMaxIndex(ws);
      if ws[idx] >= threshold then Some(idx) else None
  }

  /** The link `get` returns for candidates `cs` weighing `ws`. */
  function PickLink(cs: seq<Record>, ws: seq<real>, threshold: real): (r: Option<string>)
    requires |ws| == |cs|
    ensures r.Some? <==> Reaches(ws, threshold)
    ensures r.Some? ==> exists i :: 0 <= i < |cs| && cs[i].link == r.value && ChosenAt(ws, i, threshold)
  {
    match Select(ws, threshold)
    case None => None
    case Some(i) => Some(cs[i].link)
  }

  // ---------------------------------------------------------------- get

  /** What every engine returned or raised for the query, in engine order. */
  function Outcomes(f: Finder, query: string, search: (Engine, string) -> EngineOutcome): (os: seq<EngineOutcome>)
    ensures |os| == |f.engines|
  {
    seq(|f.engines|, i requires 0 <= i < |f.engines| => search(f.engines[i], query))
  }

  /** The merged, de-duplicated candidate list (search_engines.py:431-444). */
  function Candidates(f: Finder, query: string, search: (Engine, string) -> EngineOutcome): seq<Record> {
    Merge(Outcomes(f, query, search))
  }

  /** `UrlFinder.get(query, params)`: the link of the first best-weighted
      candidate if its weight reaches the threshold, `None` otherwise; an
      uncaught exception while weighing a candidate escapes. */
  function Get(f: Finder, query: string, params: Option<Params>, search: (Engine, string) -> EngineOutcome,
               fetch: string -> FetchOutcome, extract: (string, Selector) -> string): (r: Result<Option<string>, Exception>)
    ensures var cs := Candidates(f, query, search);
            var ws := Weights(f, cs, params, fetch, extract);
            && (r.Failure? <==> ws.Failure?)
            && (r.Failure? ==> r.error == ws.error)
            && (r.Success? ==> (r.value.Some? <==> Reaches(ws.value, f.threshold)))
            && (r.Success? && r.value.Some? ==>
                  exists i :: 0 <= i < |cs| && cs[i].link == r.value.value && ChosenAt(ws.value, i, f.threshold))
  {
    var cs := Candidates(f, query, search);
    var ws :- Weights(f, cs, params, fetch, extract);
    Success(PickLink(cs, ws, f.threshold))
  }

  /** When no engine returns a record, there is nothing to choose. */
  lemma NoCandidatesNone(f: Finder, query: string, params: Option<Params>, search: (Engine, string) -> EngineOutcome,
                         fetch: string -> FetchOutcome, extract: (string, Selector) -> string)
    requires forall i :: 0 <= i < |f.engines| ==> search(f.engines[i], query).Raised? || search(f.engines[i], query).records == []
    ensures Get(f, query, params, search, fetch, extract) == Success(None)
  {
    MergeOfNothing(Outcomes(f, query, search));
    var cs := Candidates(f, query, search);
    assert Weights(f, cs, params, fetch, extract) == Success([]);
  }
}

=== FILE: search.dfy ===
/** Literal searches over strings: Python's `str.find`, the case-insensitive
    `re.search(t, s, re.IGNORECASE)` on a literal pattern, and the whole-word
    search `re.search(r'\b' + w + r'\b', s, re.IGNORECASE)`. Patterns are
    taken literally (regular-expression metacharacters are not modelled),
    case is folded on ASCII letters, and word characters are ASCII letters,
    digits and `_`. */
module Search {
  import opened Text

  /** The least `k` in `lo..hi` with `p(k)`, or -1 when there is none:
      the left-to-right scan every search below performs. */
  function FirstFrom(lo: nat, hi: int, p: nat -> bool): (r: int)
    ensures r == -1 || lo <= r <= hi
    ensures r != -1 ==> p(r)
    ensures forall k: nat :: lo <= k <= hi && (r == -1 || k < r) ==> !p(k)
    decreases hi + 1 - lo
  {
    if lo > hi then -1 else if p(lo) then lo else FirstFrom(lo + 1, hi, p)
  }

  /** `t` occurs in `s` starting at index `i`. */
  predicate OccursAt(s: string, t: string, i: nat) {
    i + |t| <= |s| && s[i..i + |t|] == t
  }

  /** Python's `s.find(t)`: the lowest index where `t` occurs, or -1. */
  function Find(s: string, t: string): (r: int)
    ensures r == -1 || (0 <= r && OccursAt(s, t, r as nat))
    ensures forall k: nat :: (r == -1 || k < r) ==> !OccursAt(s, t, k)
  {
    var p := (k: nat) => OccursAt(s, t, k);
    var r := FirstFrom(0, |s| - |t|, p);
    assert forall k: nat :: p(k) == OccursAt(s, t, k);
    r
  }

  /** `re.search(t, s, re.IGNORECASE)` for a literal `t`. */
  predicate ContainsIgnoringCase(s: string, t: string) {
    Find(Lower(s), Lower(t)) >= 0
  }

  /** `t` occurs in `s` at index `i`, ignoring case. */
  predicate OccursAtIgnoringCase(s: string, t: string, i: nat) {
    i + |t| <= |s| && Lower(s[i..i + |t|]) == Lower(t)
  }

  /** Some window of `s` equals `t` up to case. */
  ghost predicate OccursIgnoringCase(s: string, t: string) {
    exists i: nat :: OccursAtIgnoringCase(s, t, i)
  }

  /** Case-insensitive containment holds exactly when some window of `s`
      equals the pattern up to case. */
  lemma ContainsIgnoringCaseIff(s: string, t: string)
    ensures ContainsIgnoringCase(s, t) <==> OccursIgnoringCase(s, t)
  {
    if ContainsIgnoringCase(s, t) {
      var i: nat := Find(Lower(s), Lower(t)) as nat;
      LowerSlice(s, i, i + |t|);
      assert OccursAtIgnoringCase(s, t, i);
    }
    if exists i: nat :: OccursAtIgnoringCase(s, t, i) {
      var i: nat :| OccursAtIgnoringCase(s, t, i);
      LowerSlice(s, i, i + |t|);
      assert OccursAt(Lower(s), Lower(t), i);
    }
  }

  /** Regular-expression `\w` on ASCII. */
  predicate IsWordChar(c: char) {
    ('a' <= c <= 'z') || ('A' <= c <= 'Z') || ('0' <= c <= '9') || c == '_'
  }

  predicate WordCharAt(s: string, i: int) {
    0 <= i < |s| && IsWordChar(s[i])
  }

  /** `\b` at position `i`: exactly one of the characters either side of
      `i` is a word character (outside the string counts as non-word). */
  predicate Boundary(s: string, i: int) {
    WordCharAt(s, i - 1) != WordCharAt(s, i)
  }

  /** `\bw\b` matches at `i`, ignoring case. */
  predicate WordAt(s: string, w: string, i: nat) {
    OccursAtIgnoringCase(s, w, i) && Boundary(s, i) && Boundary(s, i + |w|)
  }

  /** Start of the leftmost match of `\bw\b` in `s`, or -1. */
  function SearchWord(s: string, w: string): (r: int)
    ensures r == -1 || (0 <= r && WordAt(s, w, r as nat))
    ensures forall k: nat :: (r == -1 || k < r) ==> !WordAt(s, w, k)
  {
    var p := (k: nat) => WordAt(s, w, k);
    var r := FirstFrom(0, |s| - |w|, p);
    assert forall k: nat :: p(k) == WordAt(s, w, k);
    r
  }

  /** `bool(re.search(r'\b{}\b'.format(w), s, re.IGNORECASE))`. */
  predicate WordFound(s: string, w: string) {
    SearchWord(s, w) >= 0
  }
}

=== FILE: text.dfy ===
/** The string primitives the crawler leans on, written out: Python's notion
    of whitespace, `str.strip()`, `str.split()`, `str.replace(c, '')`,
    `str.lower()`, the sentence split `re.split(r'[\.!?]', s)` and
    `UrlFinder.strip_accents`.

    Whitespace is every character Python's `str.isspace` accepts. Only
    characters below U+0100 are given Python's case rules; `strip_accents` is
    modelled on text that is already in decomposed form. */
module Text {

  /** Python's `str.isspace`: the Unicode separators (category Zs) and the
      characters of bidirectional class WS, B or S. */
  predicate IsSpace(c: char) {
    || c == ' ' || ('\t' <= c <= '\r') || ('\U{1C}' <= c <= '\U{1F}') || c == '\U{85}' || c == '\U{A0}'
    || c == '\U{1680}' || ('\U{2000}' <= c <= '\U{200A}') || c == '\U{2028}' || c == '\U{2029}'
    || c == '\U{202F}' || c == '\U{205F}' || c == '\U{3000}'
  }

  predicate NoSpace(s: string) {
    forall i :: 0 <= i < |s| ==> !IsSpace(s[i])
  }

  predicate AllSpace(s: string) {
    forall i :: 0 <= i < |s| ==> IsSpace(s[i])
  }

  /** Neither the first nor the last character is whitespace. */
  predicate NoEdgeSpace(s: string) {
    |s| == 0 || (!IsSpace(s[0]) && !IsSpace(s[|s| - 1]))
  }

  // ---------------------------------------------------------------- strip

  /** Number of leading whitespace characters. */
  function LeadingSpaces(s: string): (n: nat)
    ensures n <= |s| && AllSpace(s[..n])
    ensures n == |s| || !IsSpace(s[n])
  {
    if |s| > 0 && IsSpace(s[0]) then 1 + LeadingSpaces(s[1..]) else 0
  }

  /** Index where the trailing whitespace run begins. */
  function TrailingStart(s: string): (j: nat)
    ensures j <= |s| && AllSpace(s[j..])
    ensures j == 0 || !IsSpace(s[j - 1])
  {
    if |s| > 0 && IsSpace(s[|s| - 1]) then TrailingStart(s[..|s| - 1]) else |s|
  }

  /** Python's `str.strip()`: the unique slice of `s` without edge
      whitespace that is surrounded only by whitespace. */
  function Strip(s: string): (r: string)
    ensures NoEdgeSpace(r)
    ensures exists i, j :: 0 <= i <= j <= |s| && r == s[i..j] && AllSpace(s[..i]) && AllSpace(s[j..])
    ensures forall c :: c in r ==> c in s
  {
    var i := LeadingSpaces(s);
    var j := TrailingStart(s);
    if j <= i then
      assert s[i..i] == [] && AllSpace(s[i..]);
      s[i..i]
    else
      s[i..j]
  }

  /** Stripping text that has no edge whitespace changes nothing. */
  lemma StripOfTrimmed(s: string)
    requires NoEdgeSpace(s)
    ensures Strip(s) == s
  {
    if |s| > 0 {
      assert LeadingSpaces(s) == 0;
      assert TrailingStart(s) == |s|;
    }
  }

  // ---------------------------------------------------------------- split

  /** Length of the run of non-whitespace characters that starts `s`. */
  function TokenLength(s: string): (n: nat)
    ensures n <= |s| && NoSpace(s[..n])
    ensures n == |s| || IsSpace(s[n])
  {
    if |s| == 0 || IsSpace(s[0]) then 0 else 1 + TokenLength(s[1..])
  }

  /** Python's `str.split()` with no separator: the maximal runs of
      non-whitespace characters, in order. */
  function Split(s: string): (r: seq<string>)
    ensures forall k :: 0 <= k < |r| ==> |r[k]| > 0 && NoSpace(r[k])
    decreases |s|
  {
    if |s| == 0 then []
    else if IsSpace(s[0]) then Split(s[1..])
    else
      var n := TokenLength(s);
      [s[..n]] + Split(s[n..])
  }

  /** Concatenation of a list of strings. */
  function Concat(ts: seq<string>): string {
    if |ts| == 0 then "" else ts[0] + Concat(ts[1..])
  }

  /** `s` with every whitespace character deleted. */
  function RemoveSpaces(s: string): string {
    if |s| == 0 then "" else (if IsSpace(s[0]) then "" else [s[0]]) + RemoveSpaces(s[1..])
  }

  /** The tokens joined with one space between neighbours: `' '.join(ts)`. */
  function JoinSpace(ts: seq<string>): string {
    if |ts| == 0 then "" else if |ts| == 1 then ts[0] else ts[0] + " " + JoinSpace(ts[1..])
  }

  lemma {:induction false} RemoveSpacesOfToken(t: string, rest: string)
    requires NoSpace(t)
    ensures RemoveSpaces(t + rest) == t + RemoveSpaces(rest)
    decreases |t|
  {
    if |t| > 0 {
      assert (t + rest)[1..] == t[1..] + rest;
      RemoveSpacesOfToken(t[1..], rest);
      assert t == [t[0]] + t[1..];
    } else {
      assert t + rest == rest;
    }
  }

  /** Splitting loses exactly the whitespace: the tokens, glued back
      together, are the non-whitespace characters of `s` in order. */
  lemma {:induction false} SplitKeepsEveryOtherChar(s: string)
    ensures Concat(Split(s)) == RemoveSpaces(s)
    decreases |s|
  {
    if |s| == 0 {
    } else if IsSpace(s[0]) {
      SplitKeepsEveryOtherChar(s[1..]);
    } else {
      var n := TokenLength(s);
      SplitKeepsEveryOtherChar(s[n..]);
      assert s == s[..n] + s[n..];
      RemoveSpacesOfToken(s[..n], s[n..]);
      assert ([s[..n]] + Split(s[n..]))[1..] == Split(s[n..]);
    }
  }

  lemma {:induction false} TokenLengthOfToken(t: string, rest: string)
    requires NoSpace(t)
    requires |rest| == 0 || IsSpace(rest[0])
    ensures TokenLength(t + rest) == |t|
    decreases |t|
  {
    if |t| > 0 {
      assert (t + rest)[1..] == t[1..] + rest;
      TokenLengthOfToken(t[1..], rest);
    } else {
      assert t + rest == rest;
    }
  }

  /** `str.split()` undoes `' '.join(...)` on tokens that are non-empty and
      free of whitespace. */
  lemma {:induction false} SplitJoinRoundTrip(ts: seq<string>)
    requires forall k :: 0 <= k < |ts| ==> |ts[k]| > 0 && NoSpace(ts[k])
    ensures Split(JoinSpace(ts)) == ts
  {
    if |ts| == 1 {
      var t := ts[0];
      TokenLengthOfToken(t, "");
      assert t + "" == t;
      assert t[..|t|] == t;
      assert t[|t|..] == [];
    } else if |ts| > 1 {
      SplitTokenThenSpace(ts[0], ' ', JoinSpace(ts[1..]));
      SplitJoinRoundTrip(ts[1..]);
      assert ts == [ts[0]] + ts[1..];
    }
  }

  /** A token followed by any whitespace character splits off as the first
      word. */
  lemma SplitTokenThenSpace(t: string, sp: char, tail: string)
    requires |t| > 0 && NoSpace(t) && IsSpace(sp)
    ensures Split(t + [sp] + tail) == [t] + Split(tail)
  {
    var s := t + [sp] + tail;
    assert s == t + ([sp] + tail);
    TokenLengthOfToken(t, [sp] + tail);
    assert s[..|t|] == t;
    assert s[|t|..] == [sp] + tail;
    assert ([sp] + tail)[1..] == tail;
  }

  /** Two tokens around one whitespace character split into those two
      words. */
  lemma SplitTwoTokens(a: string, sp: char, b: string)
    requires |a| > 0 && NoSpace(a) && |b| > 0 && NoSpace(b) && IsSpace(sp)
    ensures Split(a + [sp] + b) == [a, b]
  {
    SplitTokenThenSpace(a, sp, b);
    TokenLengthOfToken(b, "");
    assert b + "" == b && b[..|b|] == b && b[|b|..] == "";
  }

  /** Python's whitespace reaches beyond Latin-1: an ideographic space
      (U+3000) separates two words. */
  lemma IdeographicSpaceSplits()
    ensures Split("Acme\U{3000}Ltd") == ["Acme", "Ltd"]
  {
    assert "Acme\U{3000}Ltd" == "Acme" + ['\U{3000}'] + "Ltd";
    assert NoSpace("Acme") && NoSpace("Ltd");
    SplitTwoTokens("Acme", '\U{3000}', "Ltd");
  }

  // ---------------------------------------------------------------- replace

  /** `s` with every character that occurs in `cs` deleted. */
  function Without(s: string, cs: string): (r: string)
    ensures forall i :: 0 <= i < |r| ==> r[i] !in cs
    ensures |r| <= |s|
  {
    if |s| == 0 then "" else (if s[0] in cs then "" else [s[0]]) + Without(s[1..], cs)
  }

  /** Deleting characters that do not occur changes nothing. */
  lemma {:induction false} WithoutAbsent(s: string, cs: string)
    requires forall k :: 0 <= k < |s| ==> s[k] !in cs
    ensures Without(s, cs) == s
    decreases |s|
  {
    if |s| > 0 {
      WithoutAbsent(s[1..], cs);
      assert s == [s[0]] + s[1..];
    }
  }

  /** Deletion works character by character: it distributes over
      concatenation. */
  lemma {:induction false} WithoutAppend(a: string, b: string, cs: string)
    ensures Without(a + b, cs) == Without(a, cs) + Without(b, cs)
    decreases |a|
  {
    if |a| == 0 {
      assert a + b == b;
    } else {
      assert (a + b)[1..] == a[1..] + b;
      WithoutAppend(a[1..], b, cs);
    }
  }

  /** The loop `for c in chars: q = q.replace(c, '')`. */
  function ReplaceEach(q: string, chars: string): string
    decreases |chars|
  {
    if |chars| == 0 then q else ReplaceEach(Without(q, [chars[0]]), chars[1..])
  }

  lemma {:induction false} WithoutTwice(s: string, c: char, rest: string)
    ensures Without(Without(s, [c]), rest) == Without(s, [c] + rest)
    decreases |s|
  {
    if |s| > 0 {
      WithoutTwice(s[1..], c, rest);
      if s[0] != c {
        var w := Without(s, [c]);
        assert w == [s[0]] + Without(s[1..], [c]);
        assert w[0] == s[0] && w[1..] == Without(s[1..], [c]);
        assert (s[0] in [c] + rest) == (s[0] in rest);
        assert Without(w, rest) == (if s[0] in rest then "" else [s[0]]) + Without(w[1..], rest);
      } else {
        assert s[0] in [c] + rest && s[0] in [c];
        assert Without(s, [c]) == "" + Without(s[1..], [c]) == Without(s[1..], [c]);
        assert Without(s, [c] + rest) == Without(s[1..], [c] + rest);
      }
    }
  }

  /** Deleting the characters one at a time, as the source's loop does,
      deletes exactly the characters of `chars`. */
  lemma {:induction false} ReplaceEachIsWithout(q: string, chars: string)
    ensures ReplaceEach(q, chars) == Without(q, chars)
    decreases |chars|
  {
    if |chars| == 0 {
      WithoutNothing(q);
    } else {
      ReplaceEachIsWithout(Without(q, [chars[0]]), chars[1..]);
      WithoutTwice(q, chars[0], chars[1..]);
      assert [chars[0]] + chars[1..] == chars;
    }
  }

  lemma {:induction false} WithoutNothing(s: string)
    ensures Without(s, "") == s
    decreases |s|
  {
    if |s| > 0 {
      WithoutNothing(s[1..]);
      assert s == [s[0]] + s[1..];
    }
  }

  // ---------------------------------------------------------------- lower

  /** Python's `str.lower` on one ASCII character. */
  function LowerChar(c: char): char {
    if 'A' <= c <= 'Z' then (c as int + 32) as char else c
  }

  function Lower(s: string): (r: string)
    ensures |r| == |s|
    ensures forall i :: 0 <= i < |s| ==> r[i] == LowerChar(s[i])
  {
    seq(|s|, i requires 0 <= i < |s| => LowerChar(s[i]))
  }

  /** Lowering commutes with slicing. */
  lemma LowerSlice(s: string, i: int, j: int)
    requires 0 <= i <= j <= |s|
    ensures Lower(s)[i..j] == Lower(s[i..j])
  {
  }

  // ---------------------------------------------------------------- sentences

  predicate IsSentenceMark(c: char) {
    c == '.' || c == '!' || c == '?'
  }

  predicate NoSentenceMark(s: string) {
    forall i :: 0 <= i < |s| ==> !IsSentenceMark(s[i])
  }

  /** The sentence marks of `s`, in order. */
  function Marks(s: string): string {
    if |s| == 0 then "" else (if IsSentenceMark(s[0]) then [s[0]] else "") + Marks(s[1..])
  }

  /** `re.split(r'[\.!?]', s)`: the pieces between sentence marks, one more
      piece than there are marks, empty pieces included. */
  function SplitSentences(s: string): (r: seq<string>)
    ensures |r| == |Marks(s)| + 1
    ensures forall k :: 0 <= k < |r| ==> NoSentenceMark(r[k])
  {
    if |s| == 0 then [""]
    else
      var rest := SplitSentences(s[1..]);
      if IsSentenceMark(s[0]) then [""] + rest
      else [[s[0]] + rest[0]] + rest[1..]
  }

  /** Interleaves pieces with separators: p0 m0 p1 m1 ... pn. */
  function Interleave(pieces: seq<string>, marks: string): string
    requires |pieces| == |marks| + 1
  {
    if |marks| == 0 then pieces[0] else pieces[0] + [marks[0]] + Interleave(pieces[1..], marks[1..])
  }

  /** Putting the marks back between the pieces gives the text back. */
  lemma {:induction false} SplitSentencesRoundTrip(s: string)
    ensures Interleave(SplitSentences(s), Marks(s)) == s
  {
    if |s| > 0 {
      var rest := SplitSentences(s[1..]);
      SplitSentencesRoundTrip(s[1..]);
      var ms := Marks(s[1..]);
      if IsSentenceMark(s[0]) {
        assert Marks(s) == [s[0]] + ms;
        assert ([""] + rest)[1..] == rest;
        assert ([s[0]] + ms)[1..] == ms;
        assert s == [s[0]] + s[1..];
      } else {
        assert Marks(s) == ms;
        var r := [[s[0]] + rest[0]] + rest[1..];
        if |ms| == 0 {
          assert s == [s[0]] + s[1..];
        } else {
          assert r[1..] == rest[1..];
          assert Interleave(rest, ms) == rest[0] + [ms[0]] + Interleave(rest[1..], ms[1..]);
          assert s == [s[0]] + s[1..];
        }
      }
    }
  }

  // ---------------------------------------------------------------- accents

  /** The Combining Diacritical Marks block, U+0300..U+036F. */
  predicate IsCombiningMark(c: char) {
    '\U{0300}' <= c <= '\U{036F}'
  }

  predicate Unmarked(s: string) {
    forall i :: 0 <= i < |s| ==> !IsCombiningMark(s[i])
  }

  /** `UrlFinder.strip_accents` on decomposed text: drops every combining
      mark and keeps every other character. */
  function StripAccents(s: string): (r: string)
    ensures |r| <= |s|
    ensures Unmarked(r)
  {
    if |s| == 0 then "" else (if IsCombiningMark(s[0]) then "" else [s[0]]) + StripAccents(s[1..])
  }

  /** Accent stripping works character by character: it distributes over
      concatenation. */
  lemma {:induction false} StripAccentsAppend(a: string, b: string)
    ensures StripAccents(a + b) == StripAccents(a) + StripAccents(b)
    decreases |a|
  {
    if |a| == 0 {
      assert a + b == b;
    } else {
      var h := if IsCombiningMark(a[0]) then "" else [a[0]];
      assert (a + b)[0] == a[0];
      assert (a + b)[1..] == a[1..] + b;
      StripAccentsAppend(a[1..], b);
      assert StripAccents(a + b) == h + (StripAccents(a[1..]) + StripAccents(b));
      assert StripAccents(a) == h + StripAccents(a[1..]);
    }
  }

  /** Text without combining marks is left alone; in particular stripping
      twice is stripping once. */
  lemma {:induction false} StripAccentsUnmarked(s: string)
    requires Unmarked(s)
    ensures StripAccents(s) == s
    decreases |s|
  {
    if |s| > 0 {
      StripAccentsUnmarked(s[1..]);
      assert s == [s[0]] + s[1..];
    }
  }

  lemma StripAccentsIdempotent(s: string)
    ensures StripAccents(StripAccents(s)) == StripAccents(s)
  {
    StripAccentsUnmarked(StripAccents(s));
  }
}

=== FILE: urls.dfy ===
/** The link tests `UrlFinder.get` applies before fetching a candidate: the
    home-page test built on `urllib.parse.urlsplit`, the file-extension
    blocklist, and the social-domain pattern compiled in `UrlFinder.__init__`.

    `urlsplit` is modelled as Python 3.9.5 to 3.9.15 (3.9.5 added the removal
    of tab, carriage return and newline; 3.9.16 began to require a scheme to
    start with an ASCII letter, and 3.9.17 to strip leading control
    characters and spaces, neither of which is modelled) for the two components the
    home-page test reads: scheme and network location, including the
    `_checknetloc` test on the location's NFKC form. */
module Urls {
  import opened Wrappers
  import opened Errors
  import opened Text
  import opened Search

  // ---------------------------------------------------------------- urlsplit

  /** Characters `urlsplit` accepts in a scheme. */
  predicate IsSchemeChar(c: char) {
    ('a' <= c <= 'z') || ('A' <= c <= 'Z') || ('0' <= c <= '9') || c == '+' || c == '-' || c == '.'
  }

  predicate AllSchemeChars(s: string) {
    forall k :: 0 <= k < |s| ==> IsSchemeChar(s[k])
  }

  /** The characters `urlsplit` deletes before splitting. */
  const UNSAFE_CHARS: string := "\t\r\n"

  /** The characters that end a network location. */
  const NETLOC_DELIMITERS: string := "/?#"

  /** Index of the first network-location delimiter at or after 2, or `|rest|`. */
  function NetlocEnd(rest: string): (n: nat)
    requires |rest| >= 2
    ensures 2 <= n <= |rest|
    ensures forall k :: 2 <= k < n ==> rest[k] !in NETLOC_DELIMITERS
    ensures n == |rest| || rest[n] in NETLOC_DELIMITERS
  {
    var p := (k: nat) => k < |rest| && rest[k] in NETLOC_DELIMITERS;
    var r := FirstFrom(2, |rest| - 1, p);
    assert forall k: nat :: p(k) == (k < |rest| && rest[k] in NETLOC_DELIMITERS);
    if r == -1 then |rest| else r
  }

  /** The scheme and network location `urlsplit` reports. */
  datatype UrlParts = UrlParts(scheme: string, netloc: string)

  /** Where the scheme ends: the index of the first `:` when a non-empty run
      of scheme characters precedes it, -1 when there is no scheme. */
  function SchemeEnd(u: string): (i: int)
    ensures i == -1 || (0 < i < |u| && u[i] == ':' && AllSchemeChars(u[..i]))
  {
    var i := Find(u, ":");
    if i > 0 && AllSchemeChars(u[..i]) then
      assert u[i..i + 1] == ":";
      i
    else -1
  }

  /** The characters whose NFKC form holds one of `/?#@:` (Unicode 13.0):
      U+2047-U+2049 (`??`, `?!`, `!?`), U+2100, U+2101, U+2105, U+2106 (`a/c`,
      `a/s`, `c/o`, `c/u`), U+2A74 (`::=`), the small and vertical forms
      U+FE13, U+FE16, U+FE55, U+FE56, U+FE5F, U+FE6B, and the full-width
      forms U+FF03, U+FF0F, U+FF1A, U+FF1F, U+FF20. No canonical composition
      starts with one of `/?#@:`, so NFKC of a string holds such a delimiter
      exactly when the string holds one itself or one of these characters. */
  const NFKC_DELIMITER_CHARS: set<char> := {
    '\U{2047}', '\U{2048}', '\U{2049}', '\U{2100}', '\U{2101}', '\U{2105}', '\U{2106}',
    '\U{2A74}', '\U{FE13}', '\U{FE16}', '\U{FE55}', '\U{FE56}', '\U{FE5F}', '\U{FE6B}',
    '\U{FF03}', '\U{FF0F}', '\U{FF1A}', '\U{FF1F}', '\U{FF20}'}

  /** `_checknetloc` raises: after `@`, `:`, `#` and `?` are deleted, the
      NFKC form of the location holds one of `/?#@:`. A location never holds
      `/`, `?` or `#`, and the deleted characters are ASCII, so this is a
      location character that NFKC expands to a delimiter. */
  predicate ExpandsToDelimiter(netloc: string) {
    exists k :: 0 <= k < |netloc| && netloc[k] in NFKC_DELIMITER_CHARS
  }

  /** The network location after the scheme: a leading `//` starts it, and
      it runs to the next `/`, `?` or `#`; a location with one square
      bracket but not the other raises `ValueError`, and so, next, does a
      location `_checknetloc` refuses. */
  function SplitNetloc(scheme: string, rest: string): (r: Result<UrlParts, Exception>)
  {
    if |rest| >= 2 && rest[0] == '/' && rest[1] == '/' then
      var netloc := rest[2..NetlocEnd(rest)];
      if ('[' in netloc) != (']' in netloc) then Failure(ValueError)
      else if ExpandsToDelimiter(netloc) then Failure(ValueError)
      else Success(UrlParts(scheme, netloc))
    else
      Success(UrlParts(scheme, ""))
  }

  /** `urlsplit(url)[:2]`: tab, CR and LF are deleted first; the scheme, if
      any, is lowered. The only exception it raises is `ValueError`. */
  function UrlSplit(url: string): (r: Result<UrlParts, Exception>)
    ensures r.Failure? ==> r.error == ValueError
  {
    var u := Without(url, UNSAFE_CHARS);
    var i := SchemeEnd(u);
    if i > 0 then SplitNetloc(Lower(u[..i]), u[i + 1..]) else SplitNetloc("", u)
  }

  /** search_engines.py:452-454: the link equals
      `'{}://{}/'.format(scheme, netloc)` of its own split. */
  function IsHome(link: string): Result<bool, Exception> {
    var p :- UrlSplit(link);
    Success(link == p.scheme + "://" + p.netloc + "/")
  }

  /** A scheme and host that make up a home-page link: a non-empty lower-case
      scheme, and a host free of delimiters, of the characters `urlsplit`
      deletes, and of unbalanced brackets. */
  predicate RootParts(scheme: string, host: string) {
    && |scheme| > 0
    && (forall k :: 0 <= k < |scheme| ==> IsSchemeChar(scheme[k]) && !('A' <= scheme[k] <= 'Z'))
    && (forall k :: 0 <= k < |host| ==> host[k] !in NETLOC_DELIMITERS && host[k] !in UNSAFE_CHARS)
    && (('[' in host) == (']' in host))
  }

  lemma LowerOfLower(s: string)
    requires forall k :: 0 <= k < |s| ==> !('A' <= s[k] <= 'Z')
    ensures Lower(s) == s
  {
  }

  lemma RootLinkClean(scheme: string, host: string)
    requires RootParts(scheme, host)
    ensures Without(scheme + "://" + host + "/", UNSAFE_CHARS) == scheme + "://" + host + "/"
  {
    var link := scheme + "://" + host + "/";
    forall k | 0 <= k < |link|
      ensures link[k] !in UNSAFE_CHARS
    {
      if k < |scheme| {
        assert link[k] == scheme[k];
      } else if |scheme| + 3 <= k < |scheme| + 3 + |host| {
        assert link[k] == host[k - |scheme| - 3];
      }
    }
    WithoutAbsent(link, UNSAFE_CHARS);
  }

  lemma FindAfterScheme(scheme: string, rest: string)
    requires RootParts(scheme, "")
    ensures Find(scheme + ":" + rest, ":") == |scheme|
  {
    var u := scheme + ":" + rest;
    var n := |scheme|;
    assert u[n] == ':';
    assert u[n..n + 1] == ":";
    assert OccursAt(u, ":", n);
    assert forall k :: 0 <= k < n ==> u[k] == scheme[k];
  }

  lemma NetlocOfRoot(host: string)
    requires forall k :: 0 <= k < |host| ==> host[k] !in NETLOC_DELIMITERS
    ensures NetlocEnd("//" + host + "/") == |host| + 2
  {
    var rest := "//" + host + "/";
    var e := NetlocEnd(rest);
    assert rest[|host| + 2] == '/';
  }

  /** In `scheme://host/` nothing is deleted, the scheme ends at the first
      colon and is already lower-case, and `//host/` follows it. */
  lemma SchemeOfRoot(scheme: string, host: string)
    requires RootParts(scheme, host)
    ensures var link := scheme + "://" + host + "/";
            && Without(link, UNSAFE_CHARS) == link
            && SchemeEnd(link) == |scheme|
            && Lower(link[..|scheme|]) == scheme
            && link[|scheme| + 1..] == "//" + host + "/"
  {
    var link := scheme + "://" + host + "/";
    var rest := "//" + host + "/";
    RootLinkClean(scheme, host);
    assert link == scheme + ":" + rest;
    FindAfterScheme(scheme, rest);
    assert link[..|scheme|] == scheme;
    LowerOfLower(scheme);
  }

  /** The location after the scheme of `scheme://host/` is the host, unless
      `_checknetloc` refuses the host. */
  lemma NetlocSplitOfRoot(scheme: string, host: string)
    requires RootParts(scheme, host)
    ensures SplitNetloc(scheme, "//" + host + "/")
            == if ExpandsToDelimiter(host) then Failure(ValueError) else Success(UrlParts(scheme, host))
  {
    var rest := "//" + host + "/";
    NetlocOfRoot(host);
    assert rest[2..|host| + 2] == host;
  }

  /** Splitting `scheme://host/` gives back the scheme and the host, or
      raises `ValueError` when the host holds a character NFKC expands to a
      delimiter. */
  lemma SplitOfRoot(scheme: string, host: string)
    requires RootParts(scheme, host)
    ensures UrlSplit(scheme + "://" + host + "/")
            == if ExpandsToDelimiter(host) then Failure(ValueError) else Success(UrlParts(scheme, host))
  {
    SchemeOfRoot(scheme, host);
    NetlocSplitOfRoot(scheme, host);
  }

  /** Every link of the form `scheme://host/` is a home page, except that
      the home-page test raises `ValueError` on a host `_checknetloc`
      refuses. */
  lemma RootIsHome(scheme: string, host: string)
    requires RootParts(scheme, host)
    ensures IsHome(scheme + "://" + host + "/")
            == if ExpandsToDelimiter(host) then Failure(ValueError) else Success(true)
  {
    SplitOfRoot(scheme, host);
  }

  /** A full-width solidus in the host makes the home-page test raise:
      NFKC turns U+FF0F into `/`. */
  lemma FullwidthSolidusRaises()
    ensures IsHome("http://a\U{FF0F}b/") == Failure(ValueError)
  {
    var host := "a\U{FF0F}b";
    assert host[1] in NFKC_DELIMITER_CHARS;
    assert "http://a\U{FF0F}b/" == "http" + "://" + host + "/";
    RootIsHome("http", host);
  }

  /** What a successful split reports: the scheme is empty or a lowered run
      of scheme characters, and the location is free of delimiters, of the
      deleted characters, of unbalanced brackets and of characters NFKC
      expands to a delimiter. */
  lemma SplitPartsShape(url: string)
    requires UrlSplit(url).Success?
    ensures var p := UrlSplit(url).value;
      && (p.scheme == "" || RootParts(p.scheme, ""))
      && (forall k :: 0 <= k < |p.netloc| ==> p.netloc[k] !in NETLOC_DELIMITERS && p.netloc[k] !in UNSAFE_CHARS)
      && (('[' in p.netloc) == (']' in p.netloc))
      && !ExpandsToDelimiter(p.netloc)
  {
    var u := Without(url, UNSAFE_CHARS);
    var i := SchemeEnd(u);
    var rest := if i > 0 then u[i + 1..] else u;
    var p := UrlSplit(url).value;
    if |rest| >= 2 && rest[0] == '/' && rest[1] == '/' {
      var e := NetlocEnd(rest);
      assert p.netloc == rest[2..e];
      forall k | 0 <= k < |p.netloc|
        ensures p.netloc[k] !in NETLOC_DELIMITERS && p.netloc[k] !in UNSAFE_CHARS
      {
        assert p.netloc[k] == rest[k + 2];
        assert rest[k + 2] in u;
      }
    }
  }

  /** With no scheme, the split finds a location only after a leading `//`. */
  lemma NoSchemeNoNetloc(url: string)
    requires UrlSplit(url).Success?
    requires UrlSplit(url).value.scheme == ""
    requires |url| > 0 && url[0] == ':'
    ensures UrlSplit(url).value.netloc == ""
  {
    var u := Without(url, UNSAFE_CHARS);
    assert u[0] == ':' by {
      assert url == [url[0]] + url[1..];
    }
  }

  /** Conversely, every home page is `scheme://host/` for a scheme and host as
      above, except for the degenerate link `:///`, whose split is empty. */
  lemma HomeIsRoot(link: string)
    requires IsHome(link) == Success(true)
    ensures link == ":///" || exists scheme, host :: && RootParts(scheme, host) && !ExpandsToDelimiter(host)
                                                      && link == scheme + "://" + host + "/"
  {
    var p := UrlSplit(link).value;
    assert link == p.scheme + "://" + p.netloc + "/";
    SplitPartsShape(link);
    if p.scheme == "" {
      NoSchemeNoNetloc(link);
    } else {
      assert RootParts(p.scheme, p.netloc) && !ExpandsToDelimiter(p.netloc);
    }
  }

  // ---------------------------------------------------------------- extensions

  /** `UrlFinder._exclude_ext`. */
  const EXCLUDED_EXTENSIONS: set<string> :=
    {".jpg", ".png", ".pdf", ".jpeg", ".gif", ".avi", ".mp4", ".mkv", ".mp3", ".mpg", ".mpeg"}

  /** Python's `s[-n:]`: the last `n` characters, or all of a shorter `s`. */
  function LastChars(s: string, n: nat): (r: string)
    ensures |r| == if |s| <= n then |s| else n
    ensures r == s[|s| - |r|..]
  {
    if |s| <= n then s else s[|s| - n..]
  }

  /** search_engines.py:456: the lowered last 4 or last 5 characters are a
      blocked extension. */
  predicate HasExcludedExtension(link: string) {
    Lower(LastChars(link, 4)) in EXCLUDED_EXTENSIONS || Lower(LastChars(link, 5)) in EXCLUDED_EXTENSIONS
  }

  /** The two-length suffix test is exactly "ends with a blocked extension,
      ignoring case": every blocked extension has 4 or 5 characters. */
  lemma ExtensionLengths()
    ensures forall e :: e in EXCLUDED_EXTENSIONS ==> |e| == 4 || |e| == 5
  {
  }

  /** The link ends, ignoring case, with the blocked extension `e`. */
  predicate EndsWithExtension(link: string, e: string) {
    e in EXCLUDED_EXTENSIONS && |e| <= |link| && Lower(link[|link| - |e|..]) == e
  }

  lemma ExtensionFound(link: string)
    requires HasExcludedExtension(link)
    ensures exists e :: EndsWithExtension(link, e)
  {
    ExtensionLengths();
    var e4 := Lower(LastChars(link, 4));
    var e5 := Lower(LastChars(link, 5));
    assert |link| <= 4 ==> LastChars(link, 5) == LastChars(link, 4);
    if e4 in EXCLUDED_EXTENSIONS {
      assert EndsWithExtension(link, e4);
    } else {
      assert EndsWithExtension(link, e5);
    }
  }

  lemma ExtensionTested(link: string, e: string)
    requires EndsWithExtension(link, e)
    ensures HasExcludedExtension(link)
  {
    ExtensionLengths();
    if |e| == 4 {
      assert LastChars(link, 4) == link[|link| - 4..];
    } else {
      assert LastChars(link, 5) == link[|link| - 5..];
    }
  }

  /** The last-4/last-5 test is "ends, ignoring case, with a blocked
      extension". */
  lemma ExcludedExtensionIff(link: string)
    ensures HasExcludedExtension(link) <==> exists e :: EndsWithExtension(link, e)
  {
    if HasExcludedExtension(link) {
      ExtensionFound(link);
    }
    if exists e :: EndsWithExtension(link, e) {
      var e :| EndsWithExtension(link, e);
      ExtensionTested(link, e);
    }
  }

  // ---------------------------------------------------------------- social domains

  /** `UrlFinder._exclude_dom`. */
  const EXCLUDED_DOMAINS: seq<string> :=
    ["linkedin", "glassdoor", "facebook", "societe", "wikipedia", "google", "youtube"]

  /** The part of `link` the pattern must cover: `$` matches at the end or
      just before a final newline. */
  function MatchedPart(link: string): string {
    if |link| > 0 && link[|link| - 1] == '\n' then link[..|link| - 1] else link
  }

  predicate NoNewline(s: string) {
    forall k :: 0 <= k < |s| ==> s[k] != '\n'
  }

  predicate SeparatorAt(t: string, i: nat) {
    i + 3 <= |t| && t[i..i + 3] == "://"
  }

  /** `dom` followed by a dot and at least two more characters, at `j`. */
  predicate DomainAt(t: string, dom: string, j: nat) {
    j + |dom| + 3 <= |t| && t[j..j + |dom|] == dom && t[j + |dom|] == '.'
  }

  /** `re.match` of the alternative built for `dom` (search_engines.py:403):
      `^http.*://.*`, then `dom`, a literal dot, `.{2,}`, any run of slashes,
      `.*` and `$`. `.` matches anything but a newline, so the covered part is
      newline-free; it starts with `http`, has a later `://`, and after that
      `dom.` with two or more characters behind the dot. */
  predicate MatchesDomainPattern(link: string, dom: string) {
    var t := MatchedPart(link);
    && NoNewline(t)
    && |t| >= 4 && t[..4] == "http"
    && exists i: nat, j: nat | 4 <= i && i + 3 <= j <= |t| :: SeparatorAt(t, i) && DomainAt(t, dom, j)
  }

  /** `self._exclude_re.match(link)`: one of the alternatives matches. */
  predicate IsSocialLink(link: string) {
    exists k | 0 <= k < |EXCLUDED_DOMAINS| :: MatchesDomainPattern(link, EXCLUDED_DOMAINS[k])
  }

  /** Any newline-free link `http…://…dom.xx…` matches the alternative for
      `dom`. */
  lemma PatternOfParts(a: string, b: string, dom: string, c: string)
    requires |c| >= 2
    requires NoNewline(a) && NoNewline(b) && NoNewline(dom) && NoNewline(c)
    ensures MatchesDomainPattern("http" + a + "://" + b + dom + "." + c, dom)
  {
    var t := "http" + a + "://" + b + dom + "." + c;
    var i := 4 + |a|;
    var j := i + 3 + |b|;
    forall k | 0 <= k < |t|
      ensures t[k] != '\n'
    {
      if k < 4 {
      } else if k < i {
        assert t[k] == a[k - 4];
      } else if k < i + 3 {
      } else if k < j {
        assert t[k] == b[k - i - 3];
      } else if k < j + |dom| {
        assert t[k] == dom[k - j];
      } else if k > j + |dom| {
        assert t[k] == c[k - j - |dom| - 1];
      }
    }
    assert t[|t| - 1] != '\n';
    assert MatchedPart(t) == t;
    assert t[..4] == "http";
    assert t[i..i + 3] == "://";
    assert t[j..j + |dom|] == dom;
    assert t[j + |dom|] == '.';
    assert SeparatorAt(t, i) && DomainAt(t, dom, j);
  }

  /** A social profile link matches the pattern. */
  lemma SocialProfileMatches()
    ensures IsSocialLink("https://facebook.com/acme")
  {
    var t := "http" + "s" + "://" + "" + "facebook" + "." + "com/acme";
    assert t == "https://facebook.com/acme";
    PatternOfParts("s", "", "facebook", "com/acme");
    assert MatchesDomainPattern(t, EXCLUDED_DOMAINS[2]);
  }

  /** The domain need not be the host: a company page whose path names a
      blocked site also matches. */
  lemma SocialNameInPathMatches()
    ensures IsSocialLink("http://acme.com/wikipedia.htm")
  {
    var t := "http" + "" + "://" + "acme.com/" + "wikipedia" + "." + "htm";
    assert t == "http://acme.com/wikipedia.htm";
    PatternOfParts("", "acme.com/", "wikipedia", "htm");
    assert MatchesDomainPattern(t, EXCLUDED_DOMAINS[4]);
  }
}

=== FILE: wrappers.dfy ===
/** Failure-compatible wrappers used throughout the model: `Option` for the
    source's `None`-or-value results and `Result` for computations that can
    raise a Python exception. */
module Wrappers {

  datatype Option<+T> = None | Some(value: T) {

    /** Returns the wrapped value, or `default` when there is none. */
    function GetOr(default: T): T {
      match this
      case Some(v) => v
      case None => default
    }
  }

  datatype Result<+T, +E> = Success(value: T) | Failure(error: E) {

    predicate IsFailure() {
      Failure?
    }

    function PropagateFailure<U>(): Result<U, E>
      requires Failure?
    {
      Failure(error)
    }

    function Extract(): T
      requires Success?
    {
      value
    }
  }
}
